=== FILE: README.md ===
# SLFET in Dafny

SLFET ("stateless functions equivalence testing") is a small C++ header
library. It runs two implementations of the same function on the same
generated inputs and reports whether they agree.

A test names its arguments with role markers:
- `in(buffer, initializers)`: an input, shared by both implementations;
- `out(buf0, buf1)`: one output buffer per implementation;
- `inout(buf0, buf1, initializers)`: one pre-filled buffer per implementation.

`run_tests` counts a variant number up from 0. Each input or in/out
argument reads one mixed-radix digit of that number to choose an
initializer. The chosen initializer fills the argument's buffers, and the
chosen names, joined by `" vs "`, become the test name. Both functions then
run, and the reporter logs a `"return"` check and one `"output"` check per
compared argument. The repository's example functions under test are a
plain-C and an SSE4.1 version of a 16-bit vector add and of a vector sum.

The project has six modules:

- `Initializer` (initializer.dfy) models the numeric initializer
  `num_init_t`: its constructor, the range fold `in_range`, the buffer fill
  `init_array`, the `init_test_data` overloads and `to_string`.
- `Variants` (variants.dfy) reads the variant counter as a mixed-radix
  number. It gives the decoding, its inverse and the fact that the sweep
  meets every combination once.
- `Harness` (harness.dfy) models the engine. Argument kinds form a datatype
  over Dafny arrays. The functions under test are function values over
  argument contents. The reporter is a class whose log records
  `(test name, tag, passed)`. Each method that changes state is proved to
  follow a function on the buffers' contents.
- `HarnessProps` (harness_props.dfy) holds what the sweep guarantees: the
  log's size and order, when a test passes, self-comparison never failing,
  the test name, the final buffer contents and full coverage.
- `Routines` (routines.dfy) models the four example routines. Each SSE
  intrinsic is its lane-wise integer meaning, and each SSE routine is proved
  to compute exactly what its plain loop computes, for every `n`.
- `Arith` (arith.dfy) holds helper lemmas about division and remainder.

## Model

| member | source | states |
|---|---|---|
| Initializer.MakeNumInit | include/slfet.h:45-46 | The constructor stores name, start value, step and clamp range as given, and the multiplier is always 1. |
| Initializer.MakeNumInitIgnoresMul | include/slfet.h:45-46 | Two descriptors built with different multiplier arguments are equal. The defaults are step 0 and the full `int` range. |
| Initializer.CRemTruncates | include/slfet.h:50-52 | The `%` that `in_range` applies is C++ `%` on `int`: with the quotient truncated toward zero, `a == b * q + r`, `r` has the sign of `a` and is smaller than `b` in magnitude, and `b * q` lies between 0 and `a`. |
| Initializer.InRange | include/slfet.h:48-53 | Whenever `max + 1 - min > 0`, the folded value lies in `[min, max]`. |
| Initializer.InRangeFixed | include/slfet.h:51-52 | A value already in `[min, max]` folds to itself. |
| Initializer.InRangeIdempotent | include/slfet.h:48-53 | Folding twice is folding once. |
| Initializer.InRangeAbove | include/slfet.h:51-52 | `max + 1` folds to `min`. At or above `min` the fold is periodic with period `max + 1 - min`. |
| Initializer.InRangeBelow | include/slfet.h:49-50 | `min - k` folds to `max - k mod (max + 1 - min)`. So `min - 1` lands on `max - 1` for a width above 1, because `1 % width == 1` leaves `max - 1`, and `min - (max + 1 - min)` lands on `max`. |
| Initializer.InRangeNotPeriodicBelow | include/slfet.h:49-52 | Below `min` the fold is not periodic: `min - 1` and `min - 1 + width` land on different values. |
| Initializer.GenArithmetic | include/slfet.h:59-62 | `Gen(d, i)`, the running value `val` before element `i` is stored, is `value + i * inc` when the multiplier is 1. |
| Initializer.ClampIsIntersection | include/slfet.h:57-58 | `EffMin`/`EffMax`, the clamp bounds `init_array` computes with the `(Int)` casts of the type's limits, admit exactly the values in `[min, max]` and in the element type's range, for an element type no wider than `int`. |
| Initializer.WiderThanIntCollapses | include/slfet.h:57-58 | Over `uint32_t`, `int64_t` and `uint64_t` the `(Int)` casts (`AsInt`) turn the limits into 0 and -1, so the width `_max + 1 - _min` is at most 0 for every descriptor. |
| Initializer.FillNum | include/slfet.h:56-64 | For a type no wider than `int` and a non-empty clamp range (`Fits`), the fill has the requested length. Every element lies in the element type's range and in the descriptor's `[min, max]`. |
| Initializer.FillNumArithmetic | include/slfet.h:57-62 | Element `i` is `in_range(value + i * inc, max(min, Tmin), min(max, Tmax))`. |
| Initializer.InitArray | include/slfet.h:55-64 | Under `Fits`, positions `0 .. size-1` receive the fill, and the rest of the buffer is unchanged. |
| Initializer.Fill | include/slfet.h:73-95 | Whatever an initializer writes has the destination's length and fits its element type. |
| Initializer.InitTestData | include/slfet.h:73-95 | A generator fills the whole destination. A plain value is assigned to its one-element destination. |
| Initializer.NatString | include/slfet.h:21 | `std::to_string` of a natural number is a non-empty string of decimal digits. |
| Initializer.NatStringRoundTrip | include/slfet.h:21 | The digits parse back to the number. |
| Initializer.DecimalString | include/slfet.h:21 | The rendering starts with `-` exactly for negative values. |
| Initializer.DecimalStringRoundTrip | include/slfet.h:21 | The decimal rendering of any integer parses back to it. |
| Initializer.Name | include/slfet.h:67-71 | A generator's name is its stored name. A plain value's name is non-empty decimal text that parses back to the value. |
| Variants.DigitAt | include/slfet.h:109-110 | The digit an argument selects is below its list size. |
| Variants.Decode | include/slfet.h:234-239 | The argument walk yields one valid digit per argument. |
| Variants.Encode | include/slfet.h:318 | The counter with given digits is below the product of the list sizes. |
| Variants.DecodeRest | include/slfet.h:116 | What the walk leaves over is the counter divided by the product of all list sizes. |
| Variants.DecodeDigit | include/slfet.h:110 | The digit at position `j` is the counter divided by the sizes before `j`, modulo size `j`. |
| Variants.EncodeDecode | include/slfet.h:234-239 | The counter equals its digits' value plus the product times the leftover. |
| Variants.DecodeEncode | include/slfet.h:234-239 | Decoding an encoded digit tuple gives the tuple back, with nothing left over. |
| Variants.RestZeroIff | include/slfet.h:318 | The loop condition holds (leftover 0) exactly while the counter is below the product. |
| Variants.SweepCoversEachTupleOnce | include/slfet.h:318 | Every digit tuple is decoded from a counter below the product, and two such counters with equal digits are equal. |
| Variants.SameDigitsSameCounter | include/slfet.h:318 | Two counters below the product with equal digits everywhere are equal. |
| Variants.DigitOrder | include/slfet.h:110 | The first argument's digit is the counter modulo its size. Digit `j` changes only when the counter reaches a multiple of the sizes before `j`. |
| Variants.TerminalDigitsZero | include/slfet.h:318 | The counter value that ends the loop selects digit 0 for every argument. |
| Harness.Radices | include/slfet.h:109 | Each argument's radix is the size of its initializer list, or 1 for an argument without one. |
| Harness.Digit | include/slfet.h:110 | The selected initializer index of an input or in/out argument is inside its list. |
| Harness.InitializeInput | include/slfet.h:107-117 | It picks initializer `variant % size`, fills the buffer from it, joins its name onto the description (`Join`, with `" vs "` in between once the description so far is non-empty) even when the name is empty, and returns `variant / size`. An in/out, unlike an input, skips an empty name. |
| Harness.InitializeInOut | include/slfet.h:132-145 | It picks initializer `variant % size` and fills both buffers with the same contents. The name is added only when non-empty. It returns `variant / size`. |
| Harness.InitArg | include/slfet.h:221-232 | Inputs and in/outs are initialized as above. Other arguments keep their contents and leave counter and description alone. |
| Harness.InitArgAt | include/slfet.h:237 | One step of the argument walk changes argument `k`'s buffers only. |
| Harness.InitArgs | include/slfet.h:234-239 | It returns `variant / (S1*...*Sk)`, sets the description to the test name of the variant, and leaves every buffer filled from the initializer the variant's digit selects (`InitState`, slot by slot `InitSlot`). |
| Harness.CounterStep | include/slfet.h:110-116 | Before argument `k` the counter is `variant` divided by the sizes before `k`, and its remainder is digit `k`. |
| Harness.GetArg | include/slfet.h:243-261 | A plain argument binds as its value. An input binds its one buffer for both functions. An output or in/out gives function 0 its first buffer and function 1 its second. |
| Harness.SharedExactlyWhenNotCompared | include/slfet.h:243-261 | Slots 0 and 1 get the same binding exactly for plain and input arguments. |
| Harness.ActualsAreBindings | include/slfet.h:272 | `Actuals`, the argument list a function receives, is `get_arg` of each argument read from the buffers' current contents. |
| Harness.ApplyOnlyOwnBuffers | include/slfet.h:253-261 | `Apply` writes a function's results only into the buffers `get_arg` handed it: a plain argument and the other function's output or in/out buffer keep their contents. |
| Harness.ReturnData.constructor | include/slfet.h:265-283 | A fresh result holder records whether the function returns a value, with both slots zero. |
| Harness.ReturnData.Execute | include/slfet.h:270-273 | Running function `idx` leaves the buffers as the function wrote them. For a non-void function it stores the return value in slot `idx` only. Both are as `Exec` gives them: the function applied to `Actuals`, its results written back by `Apply`. |
| Harness.WriteBackAll | include/slfet.h:272 | Every buffer bound for the slot receives what the function left in it. |
| Harness.Bind | include/slfet.h:272 | The arguments a function receives are `get_arg` of each argument, read from the buffers' current contents. |
| Harness.Reporter.constructor | include/slfet.h:177-195 | The reporter starts with an empty test name and an empty log. |
| Harness.Reporter.SetTestName | include/slfet.h:179-182 | The test name changes and the log does not. |
| Harness.Reporter.AssertTrue | include/slfet.h:189-191 | Exactly one observation, `(test name, tag, requirement)`, is appended. |
| Harness.Reporter.AssertEqual | include/slfet.h:184-187 | Exactly one observation, whose outcome is `a == b`, is appended. |
| Harness.CheckReturn | include/slfet.h:300-306 | The log gains exactly the return check. |
| Harness.CheckArgs | include/slfet.h:287-298 | The log gains the output checks of the arguments in declaration order. |
| Harness.CheckOut | include/slfet.h:326-329 | The return check comes first, then the output checks. No buffer changes. |
| Harness.ExecuteBoth | include/slfet.h:322-324 | Function 0 runs first, then function 1 runs on the buffers function 0 left. |
| Harness.ExecuteAndCheck | include/slfet.h:321-329 | Both runs and the checks leave the buffers and the log that `RunState` and `RunLog` describe: function 0 on the initialized contents, function 1 on what it left, then the return check and the output checks. |
| Harness.Call | include/slfet.h:272 | Calling a function on its bound arguments gives the return value and the buffer contents `Exec` describes. |
| Harness.RunVariant | include/slfet.h:319-329 | One variant sets the test name, runs both functions and appends its checks. The test name stays set afterwards. |
| Harness.Turn | include/slfet.h:318-330 | One loop turn advances the sweep from variant `v` to `v + 1` and leaves the test name of variant `v`. |
| Harness.RunTests | include/slfet.h:313-331 | The final buffers and the whole log are `SweepState`/`SweepLog` from variant 0: variant after variant, each initializing (`StepState`/`StepLog`) and running one test, until the counter reaches `Count`. Afterwards the reporter's test name is that of the last variant, `Count - 1`. |
| Harness.SweepDone | include/slfet.h:318 | Once the counter reaches the variant count the loop only re-initializes and logs nothing. |
| Harness.SweepUnfold | include/slfet.h:318-330 | A sweep from `v` is variant `v` (`StepState`/`StepLog`) followed by the sweep from `v + 1`. |
| HarnessProps.OutputChecksShape | include/slfet.h:328 | There is one `"output"` observation per compared argument, each under the current test name. |
| HarnessProps.RunShape | include/slfet.h:326-329 | A test logs a fixed number of observations under its own name, and the `"return"` check comes first. |
| HarnessProps.ScheduleLength | include/slfet.h:318 | The sweep logs the variant count times the observations per test. |
| HarnessProps.CountIsProduct | include/slfet.h:109-116 | `Count`, the number of variants before `init_args` returns non-zero, is the product of the list sizes of the inputs and in/outs. Outputs and plain values contribute no factor. |
| HarnessProps.LogFollowsSchedule | include/slfet.h:318-330 | The log's test names follow the variants in counting order, each repeated once per observation. |
| HarnessProps.OutputChecksPass | include/slfet.h:291-298 | The output checks all pass exactly when every compared pair holds equal contents. |
| HarnessProps.RunPassesIff | include/slfet.h:319-329 | A test passes exactly when the returns agree (or the function is void) and every output and in/out pair is equal. |
| HarnessProps.SharedInputSeesFirstWrite | include/slfet.h:249-251 | Function 1 receives in a shared input what function 0 left in it, not the initialized contents. |
| HarnessProps.SelfRunAgrees | include/slfet.h:321-324 | A function that keeps its inputs, compared with itself on equal pairs, returns the same and leaves the pairs equal. |
| HarnessProps.InitKeepsPairs | include/slfet.h:142-143 | Initialization makes every in/out pair equal whatever it held, and leaves every output pair untouched; so equal pairs stay equal. |
| HarnessProps.SelfSweepPasses | include/slfet.h:313-331 | When every output pair starts equal, a whole sweep comparing an input-keeping function with itself logs no failure. Output buffers are never initialized (include/slfet.h:120-124), so that starting condition is needed. |
| HarnessProps.DescriptionSeparatesNames | include/slfet.h:111-114 | `Description`, built by `Contribute` and `Join` argument by argument, starts empty. When every contributed name is non-empty, it is the contributed names in declaration order separated by `" vs "`. |
| HarnessProps.SweepLeavesFirstInitializer | include/slfet.h:318 | After the loop, every input and in/out buffer holds what the first initializer of its list writes. |
| HarnessProps.EachCombinationOnce | include/slfet.h:318 | Every choice of one initializer per argument is made by exactly one variant below the count. |
| HarnessProps.SameDigitsSameVariant | include/slfet.h:318 | Two variants that select the same initializers everywhere are the same variant. |
| Routines.WrapRem | src/routines.cpp:8 | Two's-complement wrap-around is the remainder-based fold into `[-half, half)`. |
| Routines.WrapCongruent | src/routines.cpp:8 | `Wrap16` and `Wrap32` (the conversions to `int16_t` and `int32_t`, with half 2^15 and 2^31) differ from the exact value by a multiple of 2^16 or 2^32. |
| Routines.WrapUnique | src/routines.cpp:8 | The wrapped value is the only value in the type's range congruent to the exact value, which is what two's-complement conversion yields. |
| Routines.WrapAdd | src/routines.cpp:28 | Wrapping after every addition gives the wrap of the exact total. |
| Routines.AddElemMeaning | src/routines.cpp:8 | `AddElem`, the stored 16-bit element, is the exact sum when it fits and otherwise differs from it by exactly 2^16. |
| Routines.AddVecC | src/routines.cpp:5-9 | For every `i < n`, `c[i]` holds the 16-bit wrapped `a[i] + b[i]`. Nothing at or beyond `n` changes. |
| Routines.StoreSi128 | src/routines.cpp:17 | `c[i .. i+8]` receives the lanes and the rest of `c` is unchanged. |
| Routines.BlockLoopEnd | src/routines.cpp:13-21 | The block loop stops at `i == n - n % 8`, so the scalar loop covers exactly `[n - n % 8, n)`. |
| Routines.AddVecSse41 | src/routines.cpp:11-22 | The same postcondition as `AddVecC`, for every `n`. |
| Routines.SumAppend | src/routines.cpp:27-28 | The sum of a concatenation is the sum of the parts. |
| Routines.SumBounds | src/routines.cpp:27-28 | `Sum` of `n` elements lies in `[-2^15 * n, (2^15 - 1) * n]`. |
| Routines.ShortSumExact | src/routines.cpp:26-29 | For `n <= 2^16` the sum always fits in 32 bits, so with the postconditions of `VecSumC` and `VecSumSse41` both routines return it exactly. |
| Routines.VecSumC | src/routines.cpp:24-30 | The result is the sum of `a[0 .. n)` wrapped to 32 bits, and it is exactly that sum when the sum fits. |
| Routines.SignOfLane | src/routines.cpp:40 | Shifting by 15 gives -1 for a negative lane and 0 otherwise. |
| Routines.ShiftRightFloors | src/routines.cpp:40 | `ShiftRightArith` rounds toward minus infinity: the lane lies in `[r * 2^c, (r + 1) * 2^c)` for the count `c` clamped to 15. |
| Routines.JoinLanesHalves | src/routines.cpp:41-42 | `JoinLanes`, the 32-bit lane an unpack forms, has the high 16-bit lane as its signed top half and the low lane's bit pattern as its bottom half. |
| Routines.JoinSignExtends | src/routines.cpp:40-42 | A lane paired with its sign lane reads as the same value in 32 bits. |
| Routines.LowLaneAfterShifts | src/routines.cpp:48-54 | `Cvtsi128Si32` reads lane 0, and after one, two and three 4-byte shifts it reads lanes 1, 2 and 3. |
| Routines.LaneSumsTotal | src/routines.cpp:38-46 | The four lane sums (`LaneSum`: elements `k` and `k + 4` of every block) add up to the sum of the whole blocks. |
| Routines.BlockLane | src/routines.cpp:39-45 | One block adds sign-extended elements `k` and `k + 4` to 32-bit lane `k`. |
| Routines.BlockStep | src/routines.cpp:38-46 | Each block-loop iteration keeps `LanesHold`: every lane equal to its wrapped lane sum. |
| Routines.HorizontalSum | src/routines.cpp:48-54 | The four-step horizontal sum equals the wrapped sum of `a[0 .. n - n % 8)`. |
| Routines.VecSumSse41 | src/routines.cpp:32-60 | The same postcondition as `VecSumC`, for every `n`. |

## Left out

- The instantiation is `num_init_t<int>`. `val * mul + inc`, `max + 1 - min`
  and `min - val` are computed on unbounded integers, so 32-bit overflow in
  the generator is not modelled. It is reachable: the default descriptor
  over an `int` buffer has `_max == INT_MAX`, so `max + 1` overflows.
- Initializer.FillNum, Initializer.InitArray, Initializer.ClampIsIntersection:
  the element type must be no wider than `int` (`Fits`, `NoWiderThanInt`).
  For `uint32_t`, `int64_t` and `uint64_t` the `(Int)` casts at
  include/slfet.h:57-58 make the width at most 0 (`WiderThanIntCollapses`),
  so the C++ divides by zero or folds with a negative divisor.
- Initializer.InRange, Initializer.InitArray: callers must keep the width
  `max + 1 - min` positive, and `init_array` a non-empty clamp range
  (`Fits`). A width of 0 divides by zero in C++. A negative width is
  possible and defined there: the range `[40000, 50000]` over `int16_t`
  clamps to `_min = 40000`, `_max = 32767` (include/slfet.h:57-58), a width
  of -7232. The C++ `%` by a negative divisor then gives a value outside
  `[_min, _max]`, which `static_cast` at include/slfet.h:61 narrows. That
  behaviour is not modelled.
- Initializer lists must be non-empty (`WellFormed`). The C++ divides by
  zero on an empty list.
- Printing to `std::cout` by `cout_runtime_t` is replaced by the observation
  log, which stands for the shared output stream.
- Harness.Reporter.AssertEqual: `assert_equal` takes the runtime by value
  (include/slfet.h:208, 213), so it records on a copy. That is harmless for
  a runtime that prints, but a runtime keeping its observations in a member,
  as `Reporter.log` does, would lose every one of them. The model appends to
  the one shared log instead.
- Harness.Count, HarnessProps.ScheduleLength, HarnessProps.EachCombinationOnce,
  Harness.RunTests: the variant counter is a C++ `int` (include/slfet.h:107,
  132, 235, 318, and the `(int)` list size at :109) but a `nat` here. The
  results hold only while the variant count is at most 2^31 - 1; beyond
  that `variant++` overflows, which is undefined behaviour.
- Plain arguments are modelled as `int` values only. The C++ takes any type.
  A plain argument of class type passed as an rvalue is forwarded by
  `std::forward<Args>(args)` (include/slfet.h:323) into
  `get_arg(int, T x)` (include/slfet.h:244), which moves it into function
  0's call. Function 1 and every later variant then see a moved-from
  object. Move semantics are not modelled.
- Template and overload dispatch, perfect forwarding and the braced-list pack
  expansion are replaced by the `Arg` datatype and a loop over a sequence.
  The `reinterpret_cast` from C arrays to `std::array` and `&data[0]` on
  vectors are left out, because buffers are Dafny arrays.
- Buffers of different arguments are distinct arrays. Aliasing between
  arguments is not modelled.
- A function's result whose length differs from its buffer is ignored on
  write-back, and buffers never change length. In the C++ a function under
  test can resize a `std::vector` buffer, since `get_arg` hands it out by
  reference (include/slfet.h:249-261). Buffers whose length changes are not
  modelled.
- Harness.ArgOk: the two buffers of an output or in/out pair are required to
  be distinct and of one length. The C++ accepts `out(v0, v1)` with vectors
  of different sizes and `out(x, x)` with one object named twice; neither
  is modelled.
- `return_data_t` leaves its slots uninitialized in C++. Here they start at
  zero and are compared only after both are written.
- The return value of a function under test is an integer. Other return
  types are not modelled.
- src/main.cpp (the entry point with concrete patterns) and src/routines.h
  (declarations) are not part of this model.
- Routines.AddVecC: requires `c` to be a different array from `a` and `b`,
  so in-place use is not modelled.
- Routines.AddVecSse41: requires `c` to be a different array from `a` and
  `b`. The 16-byte alignment `_mm_load_si128` needs is not modelled.
- Routines.VecSumC, Routines.VecSumSse41: signed `int` overflow of
  `sum += a[i]` (undefined in C++; in VecSumSse41 the scalar tail at
  src/routines.cpp:57 and the `int32_t` additions at :50-54) is modelled as
  two's-complement wrap-around.
- Routines.SrliSi128: only byte counts that are whole 32-bit lanes are
  modelled, which are the only ones the routine uses.
- SSE instruction encodings and the register's bit layout beyond the lane
  views are left out. Each intrinsic is only its lane-wise integer meaning.

=== FILE: arith.dfy ===
/**
  Facts about Euclidean division and remainder that the harness model and the
  routine model both lean on. Every operand these lemmas are used with is
  non-negative or the divisor is positive, so Dafny's Euclidean `/` and `%`
  agree with the C++ operators they stand for.
*/
module Arith {

  /** Quotient and remainder are determined by `z == m * d + r` with `0 <= r < m`. */
  lemma DivModUnique(z: int, m: int, d: int, r: int)
    requires m > 0 && 0 <= r < m && z == m * d + r
    ensures z / m == d && z % m == r
  {
    var q, rr := z / m, z % m;
    assert m * (q - d) == r - rr;
    if q - d >= 1 {
      assert false;
    } else if q - d <= -1 {
      assert false;
    }
  }

  /** Adding a multiple of the divisor leaves the remainder alone. */
  lemma ModAddMultiple(z: int, m: int, k: int)
    requires m > 0
    ensures (z + m * k) % m == z % m
    ensures (z + m * k) / m == z / m + k
  {
    assert z == m * (z / m) + z % m;
    assert z + m * k == m * (z / m + k) + z % m;
    DivModUnique(z + m * k, m, z / m + k, z % m);
  }

  /** Multiplication distributes over addition. */
  lemma MulDistrib(a: int, x: int, y: int)
    ensures a * (x + y) == a * x + a * y
  {
  }

  lemma MulAssoc(a: int, b: int, c: int)
    ensures a * (b * c) == (a * b) * c
  {
  }

  /** One more copy of `p`. */
  lemma MulSucc(n: int, p: int)
    ensures (n + 1) * p == n * p + p
  {
  }

  /** Multiplying by a non-negative factor keeps the order. */
  lemma MulMono(a: int, x: int, y: int)
    requires a >= 0 && x <= y
    ensures a * x <= a * y
  {
    MulDistrib(a, x, y - x);
    assert a * (y - x) >= 0;
  }

  /** Dividing twice is dividing once by the product. */
  lemma DivDiv(v: int, a: int, b: int)
    requires v >= 0 && a > 0 && b > 0
    ensures v / a / b == v / (a * b)
  {
    var q, r1 := v / a, v % a;
    var q2, r2 := q / b, q % b;
    DivModIdentity(v, a);
    DivModIdentity(q, b);
    MulDistrib(a, b * q2, r2);
    MulAssoc(a, b, q2);
    MulMono(a, r2, b - 1);
    MulDistrib(a, b - 1, 1);
    DivModUnique(v, a * b, q2, a * r2 + r1);
  }

  /** A multiple of `m` divided by `m` gives back the factor, with nothing left over. */
  lemma DivExact(m: int, k: int)
    requires m > 0
    ensures (m * k) / m == k && (m * k) % m == 0
  {
    DivModUnique(m * k, m, k, 0);
  }

  /** A non-negative numerator has quotient zero exactly when it is below the divisor. */
  lemma DivZeroIff(v: int, m: int)
    requires v >= 0 && m > 0
    ensures v / m == 0 <==> v < m
  {
    if v < m {
      DivModUnique(v, m, 0, v);
    } else {
      assert v == m * (v / m) + v % m;
    }
  }

  /** One more digit below its radix keeps a mixed-radix value below the product. */
  lemma DigitBound(d: int, r: int, e: int, p: int)
    requires 0 <= d < r && 0 <= e < p
    ensures 0 <= d + r * e < r * p
  {
    assert r * (p - 1 - e) >= 0;
    assert r * p == r * e + r * (p - 1 - e) + r;
  }

  /** Substituting the next level of a mixed-radix expansion. */
  lemma ExpandStep(v: int, d: int, r: int, q: int, e: int, p: int, t: int)
    requires v == d + r * q && q == e + p * t
    ensures v == (d + r * e) + (r * p) * t
  {
    assert r * (e + p * t) == r * e + r * (p * t);
    assert r * (p * t) == (r * p) * t;
  }

  /** The defining identity of Euclidean division, stated for a positive divisor. */
  lemma DivModIdentity(v: int, m: int)
    requires m > 0
    ensures v == m * (v / m) + v % m && 0 <= v % m < m
  {
  }
}

=== FILE: harness.dfy ===
/**
  The variant-generation and parameter-binding engine of include/slfet.h
  (lines 97-331): the `in`/`out`/`inout` argument markers, the walk that
  initializes every marked buffer from one variant counter, the binding of
  each argument for function 0 or function 1, the capture of return values,
  the equality checks, and the `run_tests` loop that sweeps every variant.

  The C++ dispatches on argument kinds by overloading and expands argument
  packs; here an argument is a value of the datatype `Arg` and a pack is a
  sequence walked by a loop. The two functions under test are pure Dafny
  functions from the argument values they are given to an `Effect`: the
  value they return and the new contents of the buffers they were handed.
  The reporter is a log of observations `(test name, tag, passed)`.

  Each member comes twice where the source changes state: a method that
  works on the arrays, and a function on the buffers' contents that the
  method is proved to follow. The lemmas at the end are about the functions.
*/
module Harness {
  import Arith
  import Variants
  import opened Initializer

  // ---- Arguments and their buffers -----------------------------------------

  /**
    One argument of `run_tests`: a plain value passed as it is, an input
    buffer with its initializer list (`in`, slfet.h:101-118, 149-159), a pair
    of output buffers, one per function (`out`, slfet.h:120-124, 161-165), or
    a pair of in/out buffers with an initializer list (`inout`,
    slfet.h:126-146, 167-171). `ty` is the element type of the buffers.
  */
  datatype Arg =
    | Plain(value: int)
    | Input(data: array<int>, ty: IntType, inits: seq<Init>)
    | Output(data0: array<int>, data1: array<int>)
    | InOut(data0: array<int>, data1: array<int>, ty: IntType, inits: seq<Init>)
  {
    /** Whether the argument carries an initializer list (and so a digit of the counter). */
    predicate Varying() { Input? || InOut? }

    /** Whether the argument is compared after both functions ran. */
    predicate Compared() { Output? || InOut? }
  }

  /** How many buffers an argument refers to. */
  function Width(a: Arg): nat
  {
    match a
    case Plain(_) => 0
    case Input(_, _, _) => 1
    case _ => 2
  }

  /** Buffer `i` of an argument: the input buffer, or the buffer of function `i`. */
  function Buf(a: Arg, i: nat): array<int>
    requires i < Width(a)
  {
    if a.Input? then a.data else if i == 0 then a.data0 else a.data1
  }

  function Frame(a: Arg): set<array<int>>
  {
    match a
    case Plain(_) => {}
    case Input(d, _, _) => {d}
    case Output(d0, d1) => {d0, d1}
    case InOut(d0, d1, _, _) => {d0, d1}
  }

  /** Every buffer of every argument. */
  function Footprint(args: seq<Arg>): set<array<int>>
  {
    set j, x | 0 <= j < |args| && x in Frame(args[j]) :: x
  }

  /**
    What the model requires of one argument: a non-empty initializer list
    whose entries all suit the buffers, and two distinct buffers of one
    length for the paired kinds. The C++ does not enforce the last two: a
    pair of vectors of different sizes, or one object named twice, compiles.
  */
  predicate ArgOk(a: Arg)
  {
    match a
    case Plain(_) => true
    case Input(d, t, inits) =>
      |inits| > 0 && forall i :: 0 <= i < |inits| ==> Applicable(inits[i], t, d.Length)
    case Output(d0, d1) => d0 != d1 && d0.Length == d1.Length
    case InOut(d0, d1, t, inits) =>
      d0 != d1 && d0.Length == d1.Length &&
      |inits| > 0 && forall i :: 0 <= i < |inits| ==> Applicable(inits[i], t, d0.Length)
  }

  /** A test definition: every argument well formed, and no buffer shared by two arguments. */
  predicate WellFormed(args: seq<Arg>)
  {
    (forall j :: 0 <= j < |args| ==> ArgOk(args[j])) &&
    (forall j, k :: 0 <= j < |args| && 0 <= k < |args| && j != k ==> Separate(args, j, k))
  }

  /** Arguments `j` and `k` share no buffer. */
  predicate Separate(args: seq<Arg>, j: nat, k: nat)
    requires j < |args| && k < |args|
  {
    Frame(args[j]) !! Frame(args[k])
  }

  // ---- The contents of the buffers, as values ------------------------------

  /** The contents of an argument's buffers, buffer `i` at index `i`. */
  type Slot = seq<seq<int>>

  function SlotOf(a: Arg): (s: Slot)
    reads Frame(a)
    ensures |s| == Width(a) && forall i :: 0 <= i < Width(a) ==> s[i] == Buf(a, i)[..]
  {
    match a
    case Plain(_) => []
    case Input(d, _, _) => [d[..]]
    case Output(d0, d1) => [d0[..], d1[..]]
    case InOut(d0, d1, _, _) => [d0[..], d1[..]]
  }

  /** A slot has the shape of the argument's buffers. */
  predicate SlotShaped(a: Arg, s: Slot)
  {
    |s| == Width(a) && forall i :: 0 <= i < Width(a) ==> |s[i]| == Buf(a, i).Length
  }

  predicate Shaped(args: seq<Arg>, st: seq<Slot>)
  {
    |st| == |args| && forall j :: 0 <= j < |args| ==> SlotShaped(args[j], st[j])
  }

  /** The contents of every argument's buffers. */
  function State(args: seq<Arg>): (st: seq<Slot>)
    reads Footprint(args)
    ensures Shaped(args, st)
    ensures forall j :: 0 <= j < |args| ==> st[j] == SlotOf(args[j])
  {
    seq(|args|, j requires 0 <= j < |args| reads Footprint(args) => SlotOf(args[j]))
  }

  // ---- Initialization: digits, contents, description -----------------------

  /** The radix of an argument: its number of initializers, or 1 when it has none. */
  function Radix(a: Arg): nat
  {
    if a.Varying() then |a.inits| else 1
  }

  function Radices(args: seq<Arg>): (rs: seq<nat>)
    requires WellFormed(args)
    ensures |rs| == |args| && Variants.Positive(rs)
    ensures forall j :: 0 <= j < |args| ==> rs[j] == Radix(args[j])
  {
    seq(|args|, j requires 0 <= j < |args| => Radix(args[j]))
  }

  /** The number of variants `run_tests` executes for these arguments. */
  function Count(args: seq<Arg>): (n: nat)
    requires WellFormed(args)
    ensures n > 0
  {
    Variants.Product(Radices(args))
  }

  /** The index into argument `j`'s initializer list that variant `v` selects. */
  function Digit(args: seq<Arg>, v: nat, j: nat): (d: nat)
    requires WellFormed(args) && j < |args|
    ensures args[j].Varying() ==> d < |args[j].inits|
  {
    Variants.DigitAt(v, Radices(args), j)
  }

  /**
    The contents an `initialize` call leaves: an input buffer, and both
    buffers of an in/out pair, filled from the selected initializer; other
    arguments untouched.
  */
  function InitSlot(a: Arg, d: nat, s: Slot): (r: Slot)
    requires ArgOk(a) && SlotShaped(a, s)
    requires a.Varying() ==> d < |a.inits|
    ensures SlotShaped(a, r)
  {
    match a
    case Input(data, t, inits) => [Fill(inits[d], t, data.Length)]
    case InOut(data0, _, t, inits) =>
      var f := Fill(inits[d], t, data0.Length);
      [f, f]
    case _ => s
  }

  /** The contents `init_args` leaves for variant `v`. */
  function InitState(args: seq<Arg>, v: nat, st: seq<Slot>): (r: seq<Slot>)
    requires WellFormed(args) && Shaped(args, st)
    ensures Shaped(args, r)
  {
    seq(|args|, j requires 0 <= j < |args| => InitSlot(args[j], Digit(args, v, j), st[j]))
  }

  /** Appending a name to the description: no separator before the first. */
  function Join(desc: string, name: string): string
  {
    if desc == [] then name else desc + " vs " + name
  }

  /**
    What an argument adds to the description: an input always joins its
    selected name (slfet.h:111-114), an in/out only a non-empty one
    (slfet.h:135-141), other arguments nothing.
  */
  function Contribute(desc: string, a: Arg, d: nat): string
    requires a.Varying() ==> d < |a.inits|
  {
    match a
    case Input(_, _, inits) => Join(desc, Name(inits[d]))
    case InOut(_, _, _, inits) =>
      var name := Name(inits[d]);
      if name == [] then desc else Join(desc, name)
    case _ => desc
  }

  /** The description after the first `k` arguments contributed. */
  function DescriptionUpTo(args: seq<Arg>, v: nat, k: nat): string
    requires WellFormed(args) && k <= |args|
  {
    if k == 0 then "" else Contribute(DescriptionUpTo(args, v, k - 1), args[k - 1], Digit(args, v, k - 1))
  }

  /** The test name of variant `v`. */
  function Description(args: seq<Arg>, v: nat): string
    requires WellFormed(args)
  {
    DescriptionUpTo(args, v, |args|)
  }

  // ---- Initialization: the methods -----------------------------------------

  /**
    `input_data_t::initialize` (slfet.h:107-117): selects initializer
    `variant % size`, joins its name to the description, fills the buffer and
    leaves `variant / size`.
  */
  method InitializeInput(a: Arg, variant: nat, desc: string) returns (variant': nat, desc': string)
    requires a.Input? && ArgOk(a)
    modifies a.data
    ensures variant' == variant / |a.inits|
    ensures desc' == Join(desc, Name(a.inits[variant % |a.inits|]))
    ensures a.data[..] == Fill(a.inits[variant % |a.inits|], a.ty, a.data.Length)
  {
    var numVariants := |a.inits|;
    var init := a.inits[variant % numVariants];
    if desc == [] {
      desc' := Name(init);
    } else {
      desc' := desc + " vs " + Name(init);
    }
    InitTestData(init, a.ty, a.data);
    variant' := variant / numVariants;
  }

  /**
    `inout_data_t::initialize` (slfet.h:132-145): as for an input, except
    that an empty name leaves the description alone and both buffers are
    filled from the same initializer.
  */
  method InitializeInOut(a: Arg, variant: nat, desc: string) returns (variant': nat, desc': string)
    requires a.InOut? && ArgOk(a)
    modifies a.data0, a.data1
    ensures variant' == variant / |a.inits|
    ensures desc' == Contribute(desc, a, variant % |a.inits|)
    ensures a.data0[..] == Fill(a.inits[variant % |a.inits|], a.ty, a.data0.Length)
    ensures a.data1[..] == a.data0[..]
  {
    var numVariants := |a.inits|;
    var init := a.inits[variant % numVariants];
    var name := Name(init);
    if name == [] {
      desc' := desc;
    } else if desc == [] {
      desc' := name;
    } else {
      desc' := desc + " vs " + name;
    }
    InitTestData(init, a.ty, a.data0);
    InitTestData(init, a.ty, a.data1);
    variant' := variant / numVariants;
  }

  /** `init_arg` (slfet.h:221-232): initializes an input or in/out argument, ignores the others. */
  method InitArg(a: Arg, variant: nat, desc: string) returns (variant': nat, desc': string)
    requires ArgOk(a)
    modifies Frame(a)
    ensures variant' == variant / Radix(a)
    ensures desc' == Contribute(desc, a, variant % Radix(a))
    ensures SlotOf(a) == InitSlot(a, variant % Radix(a), old(SlotOf(a)))
  {
    match a {
      case Input(_, _, _) =>
        variant', desc' := InitializeInput(a, variant, desc);
      case InOut(_, _, _, _) =>
        variant', desc' := InitializeInOut(a, variant, desc);
      case _ =>
        variant', desc' := variant, desc;
    }
  }

  /** The contents after the first `k` arguments took their digit of variant `v`. */
  function InitStateUpTo(args: seq<Arg>, v: nat, st: seq<Slot>, k: nat): (r: seq<Slot>)
    requires WellFormed(args) && Shaped(args, st) && k <= |args|
    ensures Shaped(args, r)
  {
    seq(|args|, j requires 0 <= j < |args| =>
      if j < k then InitSlot(args[j], Digit(args, v, j), st[j]) else st[j])
  }

  /** `init_arg` on argument `k` of a well-formed list leaves every other argument's buffers alone. */
  method InitArgAt(args: seq<Arg>, k: nat, variant: nat, desc: string) returns (variant': nat, desc': string)
    requires WellFormed(args) && k < |args|
    modifies Frame(args[k])
    ensures variant' == variant / Radix(args[k])
    ensures desc' == Contribute(desc, args[k], variant % Radix(args[k]))
    ensures State(args) == old(State(args))[k := InitSlot(args[k], variant % Radix(args[k]), old(State(args))[k])]
  {
    variant', desc' := InitArg(args[k], variant, desc);
    forall j | 0 <= j < |args| && j != k
      ensures SlotOf(args[j]) == old(SlotOf(args[j]))
    {
      assert Separate(args, j, k);
    }
  }

  /**
    `init_args` (slfet.h:234-239): resets the description, lets every
    argument in declaration order take its digit of the counter, and returns
    what is left of the counter.
  */
  method InitArgs(args: seq<Arg>, variant: nat) returns (rest: nat, desc: string)
    requires WellFormed(args)
    modifies Footprint(args)
    ensures rest == variant / Count(args)
    ensures desc == Description(args, variant)
    ensures State(args) == InitState(args, variant, old(State(args)))
  {
    ghost var rs := Radices(args);
    ghost var st := State(args);
    desc := "";
    rest := variant;
    var k := 0;
    while k < |args|
      invariant 0 <= k <= |args|
      invariant rest == variant / Variants.Product(rs[..k])
      invariant desc == DescriptionUpTo(args, variant, k)
      invariant State(args) == InitStateUpTo(args, variant, st, k)
    {
      assert Frame(args[k]) <= Footprint(args);
      CounterStep(args, variant, k);
      InitStateStep(args, variant, st, k);
      rest, desc := InitArgAt(args, k, rest, desc);
      k := k + 1;
    }
    CounterDone(args, variant, st);
  }

  /** One argument's turn in `init_args`: it takes digit `k` and leaves the counter for the next. */
  lemma CounterStep(args: seq<Arg>, v: nat, k: nat)
    requires WellFormed(args) && k < |args|
    ensures v / Variants.Product(Radices(args)[..k]) % Radix(args[k]) == Digit(args, v, k)
    ensures v / Variants.Product(Radices(args)[..k]) / Radix(args[k]) == v / Variants.Product(Radices(args)[..k + 1])
  {
    var rs := Radices(args);
    Variants.ProductPrefix(rs, k);
    Arith.DivDiv(v, Variants.Product(rs[..k]), rs[k]);
  }

  lemma InitStateStep(args: seq<Arg>, v: nat, st: seq<Slot>, k: nat)
    requires WellFormed(args) && Shaped(args, st) && k < |args|
    ensures InitStateUpTo(args, v, st, k)[k] == st[k]
    ensures InitStateUpTo(args, v, st, k + 1)
            == InitStateUpTo(args, v, st, k)[k := InitSlot(args[k], Digit(args, v, k), st[k])]
  {
  }

  lemma CounterDone(args: seq<Arg>, v: nat, st: seq<Slot>)
    requires WellFormed(args) && Shaped(args, st)
    ensures Radices(args)[..|args|] == Radices(args)
    ensures InitStateUpTo(args, v, st, |args|) == InitState(args, v, st)
  {
  }

  // ---- Binding and execution -----------------------------------------------

  /** What `get_arg` resolves an argument to: a value, or a buffer. */
  datatype Bound = Value(v: int) | Ref(buf: array<int>)

  /**
    `get_arg` (slfet.h:243-261) for function `slot` (0 or 1): a plain value
    itself, the one input buffer, or the slot's own output or in/out buffer.
  */
  function GetArg(slot: nat, a: Arg): (b: Bound)
    requires slot < 2
    ensures b.Value? <==> a.Plain?
    ensures b.Ref? ==> b.buf in Frame(a)
    ensures !a.Plain? ==> b == Ref(Buf(a, if a.Input? then 0 else slot))
  {
    match a
    case Plain(v) => Value(v)
    case Input(d, _, _) => Ref(d)
    case Output(d0, d1) => Ref(if slot == 0 then d0 else d1)
    case InOut(d0, d1, _, _) => Ref(if slot == 0 then d0 else d1)
  }

  /** Which of an argument's buffers `get_arg` hands to function `slot`. */
  function BufIndex(a: Arg, slot: nat): (i: nat)
    requires slot < 2 && !a.Plain?
    ensures i < Width(a) && GetArg(slot, a) == Ref(Buf(a, i))
  {
    if a.Input? then 0 else slot
  }

  /**
    The two functions get the same plain value and the same input buffer,
    but different output and in/out buffers.
  */
  lemma SharedExactlyWhenNotCompared(a: Arg)
    requires ArgOk(a)
    ensures GetArg(0, a) == GetArg(1, a) <==> !a.Compared()
  {
  }

  /** An argument as a function under test sees it: a value, or a buffer's contents. */
  datatype Actual = Scalar(v: int) | Buffer(contents: seq<int>)

  /** What a function under test returns, and the contents it leaves in argument `j`'s buffer at `out[j]`. */
  datatype Effect = Effect(ret: int, out: seq<seq<int>>)

  /** A function under test. */
  type Impl = seq<Actual> -> Effect

  /** The arguments function `slot` receives, read from the contents `st`. */
  function Actuals(args: seq<Arg>, slot: nat, st: seq<Slot>): (xs: seq<Actual>)
    requires slot < 2 && Shaped(args, st)
    ensures |xs| == |args|
  {
    seq(|args|, j requires 0 <= j < |args| =>
      if args[j].Plain? then Scalar(args[j].value) else Buffer(st[j][BufIndex(args[j], slot)]))
  }

  /** Reads the argument `get_arg` resolves to. */
  function Read(b: Bound): Actual
    reads if b.Ref? then {b.buf} else {}
  {
    match b
    case Value(v) => Scalar(v)
    case Ref(buf) => Buffer(buf[..])
  }

  /** A buffer's new contents; a function cannot change a buffer's length, so a result of another length is ignored. */
  function WriteBack(cur: seq<int>, e: Effect, j: nat): (r: seq<int>)
    ensures |r| == |cur|
  {
    if j < |e.out| && |e.out[j]| == |cur| then e.out[j] else cur
  }

  /** The contents after function `slot` ran with effect `e`: each buffer it was handed gets its new contents. */
  function Apply(args: seq<Arg>, slot: nat, st: seq<Slot>, e: Effect): (r: seq<Slot>)
    requires slot < 2 && Shaped(args, st)
    ensures Shaped(args, r)
  {
    ApplyUpTo(args, slot, st, e, |args|)
  }

  /** The new contents of argument `j`'s buffers: the one handed to function `slot` takes its result. */
  function ApplySlot(a: Arg, slot: nat, s: Slot, e: Effect, j: nat): (r: Slot)
    requires slot < 2 && SlotShaped(a, s)
    ensures SlotShaped(a, r)
  {
    if a.Plain? then s
    else
      var i := BufIndex(a, slot);
      s[i := WriteBack(s[i], e, j)]
  }

  /** The contents after the results for the first `k` arguments were written back. */
  function ApplyUpTo(args: seq<Arg>, slot: nat, st: seq<Slot>, e: Effect, k: nat): (r: seq<Slot>)
    requires slot < 2 && Shaped(args, st) && k <= |args|
    ensures Shaped(args, r)
  {
    seq(|args|, j requires 0 <= j < |args| =>
      if j < k then ApplySlot(args[j], slot, st[j], e, j) else st[j])
  }

  lemma ApplyStep(args: seq<Arg>, slot: nat, st: seq<Slot>, e: Effect, k: nat)
    requires slot < 2 && Shaped(args, st) && k < |args|
    ensures ApplyUpTo(args, slot, st, e, k)[k] == st[k]
    ensures ApplyUpTo(args, slot, st, e, k + 1)
            == ApplyUpTo(args, slot, st, e, k)[k := ApplySlot(args[k], slot, st[k], e, k)]
  {
  }

  lemma ApplyNone(args: seq<Arg>, slot: nat, st: seq<Slot>, e: Effect)
    requires slot < 2 && Shaped(args, st)
    ensures ApplyUpTo(args, slot, st, e, 0) == st
  {
  }

  /** Function `slot` receives what `get_arg` resolves to, read from the current contents of the buffers. */
  lemma ActualsAreBindings(args: seq<Arg>, slot: nat)
    requires slot < 2 && WellFormed(args)
    ensures forall j :: 0 <= j < |args| ==> Actuals(args, slot, State(args))[j] == Read(GetArg(slot, args[j]))
  {
  }

  /**
    Function `slot`'s results land only in the buffers `get_arg` handed it:
    a plain argument's slot and the other function's output or in/out buffer
    are unchanged, and the handed buffer takes the result.
  */
  lemma ApplyOnlyOwnBuffers(args: seq<Arg>, slot: nat, st: seq<Slot>, e: Effect, j: nat)
    requires slot < 2 && Shaped(args, st) && j < |args|
    ensures args[j].Plain? ==> Apply(args, slot, st, e)[j] == st[j]
    ensures args[j].Compared() ==> Apply(args, slot, st, e)[j][1 - slot] == st[j][1 - slot]
    ensures !args[j].Plain? ==>
              Apply(args, slot, st, e)[j][BufIndex(args[j], slot)] == WriteBack(st[j][BufIndex(args[j], slot)], e, j)
  {
  }

  /** Running function `f` in slot `slot`: its return value and the contents it leaves. */
  function Exec(args: seq<Arg>, slot: nat, f: Impl, st: seq<Slot>): (r: (int, seq<Slot>))
    requires slot < 2 && Shaped(args, st)
    ensures Shaped(args, r.1)
  {
    var e := f(Actuals(args, slot, st));
    (e.ret, Apply(args, slot, st, e))
  }

  /** Overwrites a buffer with new contents of the same length. */
  method Store(buf: array<int>, s: seq<int>)
    requires |s| == buf.Length
    modifies buf
    ensures buf[..] == s
  {
    forall i | 0 <= i < buf.Length {
      buf[i] := s[i];
    }
  }

  /**
    `return_data_t` (slfet.h:265-283): the two captured return values, one
    per function, when the functions return a value; nothing is captured when
    they return `void`. The member array `data[2]` is the sequence `data`.
  */
  class ReturnData {
    const hasValue: bool
    var data: seq<int>

    /** The C++ leaves `data` uninitialized; here it starts as two zeros, which are never compared. */
    constructor (hasValue: bool)
      ensures this.hasValue == hasValue && data == [0, 0]
    {
      this.hasValue := hasValue;
      data := [0, 0];
    }

    /**
      `execute`: calls `f` with the arguments bound for slot `idx`, stores
      what it returns in `data[idx]` unless it returns `void`, and leaves in
      each buffer it was handed the contents it wrote there.
    */
    method Execute(idx: nat, f: Impl, args: seq<Arg>)
      requires idx < 2 && |data| == 2 && WellFormed(args)
      modifies this`data, Footprint(args)
      ensures State(args) == Exec(args, idx, f, old(State(args))).1
      ensures data == if hasValue then old(data)[idx := Exec(args, idx, f, old(State(args))).0] else old(data)
    {
      var ret := Call(idx, f, args);
      if hasValue {
        data := data[idx := ret];
      }
    }
  }

  /** Calls `f` with the arguments bound for slot `slot`, writes its results back and returns what it returned. */
  method Call(slot: nat, f: Impl, args: seq<Arg>) returns (ret: int)
    requires slot < 2 && WellFormed(args)
    modifies Footprint(args)
    ensures (ret, State(args)) == Exec(args, slot, f, old(State(args)))
  {
    ghost var st := State(args);
    var xs := Bind(args, slot);
    assert State(args) == st;
    var e := f(xs);
    ghost var after := Apply(args, slot, st, e);
    assert Exec(args, slot, f, st) == (e.ret, after);
    WriteBackAll(args, slot, e);
    assert State(args) == after;
    ret := e.ret;
  }

  /** Writes the result of function `slot` back into every buffer it was handed. */
  method WriteBackAll(args: seq<Arg>, slot: nat, e: Effect)
    requires slot < 2 && WellFormed(args)
    modifies Footprint(args)
    ensures State(args) == Apply(args, slot, old(State(args)), e)
  {
    ghost var st := State(args);
    ApplyNone(args, slot, st, e);
    var k := 0;
    while k < |args|
      invariant 0 <= k <= |args|
      invariant State(args) == ApplyUpTo(args, slot, st, e, k)
    {
      ApplyStep(args, slot, st, e, k);
      assert Frame(args[k]) <= Footprint(args);
      WriteBackAt(args, slot, k, e);
      k := k + 1;
    }
  }

  /** The arguments `get_arg` binds for function `slot`, read from the buffers. */
  method Bind(args: seq<Arg>, slot: nat) returns (xs: seq<Actual>)
    requires slot < 2 && WellFormed(args)
    ensures xs == Actuals(args, slot, State(args))
  {
    ghost var st := State(args);
    xs := [];
    var k := 0;
    while k < |args|
      invariant 0 <= k <= |args|
      invariant xs == Actuals(args, slot, st)[..k]
    {
      xs := xs + [Read(GetArg(slot, args[k]))];
      k := k + 1;
    }
  }

  /** Writes the result of function `slot` back into the buffer of argument `k` it was handed; nothing else changes. */
  method WriteBackAt(args: seq<Arg>, slot: nat, k: nat, e: Effect)
    requires slot < 2 && WellFormed(args) && k < |args|
    modifies Frame(args[k])
    ensures State(args) == old(State(args))[k := ApplySlot(args[k], slot, old(State(args))[k], e, k)]
  {
    var a := args[k];
    if !a.Plain? {
      var i := BufIndex(a, slot);
      var buf := Buf(a, i);
      ghost var s := SlotOf(a);
      Store(buf, WriteBack(buf[..], e, k));
      assert SlotOf(a) == s[i := WriteBack(s[i], e, k)] by {
        forall i' | 0 <= i' < Width(a) && i' != i
          ensures Buf(a, i')[..] == s[i']
        {
          assert Buf(a, i') != buf;
        }
      }
    }
    forall j | 0 <= j < |args| && j != k
      ensures SlotOf(args[j]) == old(SlotOf(args[j]))
    {
      assert Separate(args, j, k);
    }
  }

  // ---- Reporting and checks ------------------------------------------------

  /** One observation the reporter records: the current test name, the tag, and the outcome. */
  datatype Observation = Observation(test: string, tag: string, passed: bool)

  /**
    The reporter, `cout_runtime_t` (slfet.h:177-195): it keeps the current
    test name and records every observation. Its printing to standard output
    is modelled by the log alone.
  */
  class Reporter {
    var testName: string
    var log: seq<Observation>

    constructor ()
      ensures testName == [] && log == []
    {
      testName := [];
      log := [];
    }

    method SetTestName(name: string)
      modifies this`testName
      ensures testName == name && log == old(log)
    {
      testName := name;
    }

    method AssertTrue(requirement: bool, tag: string)
      modifies this`log
      ensures log == old(log) + [Observation(testName, tag, requirement)]
    {
      log := log + [Observation(testName, tag, requirement)];
    }

    method AssertEqual<T(==)>(a: T, b: T, tag: string)
      modifies this`log
      ensures log == old(log) + [Observation(testName, tag, a == b)]
    {
      AssertTrue(a == b, tag);
    }
  }

  /** What `check_out` observes for one argument: outputs and in/outs compare their two buffers, others nothing. */
  function OutputCheck(a: Arg, s: Slot, name: string): (obs: seq<Observation>)
    requires SlotShaped(a, s)
    ensures |obs| == (if a.Compared() then 1 else 0)
    ensures a.Compared() ==> obs == [Observation(name, "output", s[0] == s[1])]
  {
    if a.Compared() then [Observation(name, "output", s[0] == s[1])] else []
  }

  /** The `"output"` observations of the first `k` arguments. */
  function OutputChecksUpTo(args: seq<Arg>, st: seq<Slot>, name: string, k: nat): (obs: seq<Observation>)
    requires Shaped(args, st) && k <= |args|
  {
    if k == 0 then [] else OutputChecksUpTo(args, st, name, k - 1) + OutputCheck(args[k - 1], st[k - 1], name)
  }

  function OutputChecks(args: seq<Arg>, st: seq<Slot>, name: string): seq<Observation>
    requires Shaped(args, st)
  {
    OutputChecksUpTo(args, st, name, |args|)
  }

  /** What `check_out` observes for the return values: one `"return"` comparison unless they are `void`. */
  function ReturnCheck(hasValue: bool, ret0: int, ret1: int, name: string): (obs: seq<Observation>)
    ensures |obs| == (if hasValue then 1 else 0)
    ensures hasValue ==> obs == [Observation(name, "return", ret0 == ret1)]
  {
    if hasValue then [Observation(name, "return", ret0 == ret1)] else []
  }

  /** `check_out` for the return values (slfet.h:300-306). */
  method CheckReturn(r: Reporter, retn: ReturnData)
    requires |retn.data| == 2
    modifies r`log
    ensures r.log == old(r.log) + ReturnCheck(retn.hasValue, retn.data[0], retn.data[1], r.testName)
  {
    if retn.hasValue {
      r.AssertEqual(retn.data[0], retn.data[1], "return");
    }
  }

  /**
    `check_out` for each argument in declaration order (slfet.h:287-298):
    outputs and in/outs compare their two buffers, whose contents are given.
  */
  method CheckArgs(r: Reporter, args: seq<Arg>, contents: seq<Slot>)
    requires Shaped(args, contents)
    modifies r`log
    ensures r.log == old(r.log) + OutputChecks(args, contents, r.testName)
  {
    var k := 0;
    while k < |args|
      invariant 0 <= k <= |args|
      invariant r.log == old(r.log) + OutputChecksUpTo(args, contents, r.testName, k)
    {
      if args[k].Compared() {
        r.AssertEqual(contents[k][0], contents[k][1], "output");
      }
      k := k + 1;
    }
  }

  /**
    The checks after both functions ran (slfet.h:326-329): the return values
    first, then every argument. The buffers are read once, before the
    reporter is called; the reporter changes no buffer, so the comparisons
    see what the C++ comparisons see.
  */
  method CheckOut(r: Reporter, retn: ReturnData, args: seq<Arg>)
    requires |retn.data| == 2
    modifies r`log
    ensures State(args) == old(State(args))
    ensures r.log == old(r.log) + ReturnCheck(retn.hasValue, retn.data[0], retn.data[1], r.testName)
                                + OutputChecks(args, State(args), r.testName)
  {
    var contents := State(args);
    CheckReturn(r, retn);
    CheckArgs(r, args, contents);
  }

  // ---- The sweep -------------------------------------------------------------

  /** The contents after function 0 and then function 1 ran on contents `st`. */
  function RunState(args: seq<Arg>, f0: Impl, f1: Impl, st: seq<Slot>): (r: seq<Slot>)
    requires Shaped(args, st)
    ensures Shaped(args, r)
  {
    Exec(args, 1, f1, Exec(args, 0, f0, st).1).1
  }

  /**
    What one test under name `name` on contents `st` observes: the return
    values of function 0 and function 1, then every output and in/out pair as
    the two functions left it.
  */
  function RunLog(args: seq<Arg>, f0: Impl, f1: Impl, hasValue: bool, name: string, st: seq<Slot>)
    : seq<Observation>
    requires Shaped(args, st)
  {
    var x0 := Exec(args, 0, f0, st);
    ReturnCheck(hasValue, x0.0, Exec(args, 1, f1, x0.1).0, name) + OutputChecks(args, RunState(args, f0, f1, st), name)
  }

  /** The contents after variant `v`: initialize the buffers for it, then run both functions. */
  function StepState(args: seq<Arg>, f0: Impl, f1: Impl, v: nat, st: seq<Slot>): (r: seq<Slot>)
    requires WellFormed(args) && Shaped(args, st)
    ensures Shaped(args, r)
  {
    RunState(args, f0, f1, InitState(args, v, st))
  }

  /** What the test of variant `v` observes, under the variant's name. */
  function StepLog(args: seq<Arg>, f0: Impl, f1: Impl, hasValue: bool, v: nat, st: seq<Slot>): seq<Observation>
    requires WellFormed(args) && Shaped(args, st)
  {
    RunLog(args, f0, f1, hasValue, Description(args, v), InitState(args, v, st))
  }

  /**
    The contents the variants from `v` on leave: each one in turn, then the
    initialization by the counter that ends the loop.
  */
  function SweepState(args: seq<Arg>, f0: Impl, f1: Impl, v: nat, st: seq<Slot>): (r: seq<Slot>)
    requires WellFormed(args) && Shaped(args, st)
    ensures Shaped(args, r)
    decreases Count(args) - v
  {
    if v < Count(args) then SweepState(args, f0, f1, v + 1, StepState(args, f0, f1, v, st))
    else InitState(args, v, st)
  }

  /** What the variants from `v` on observe, one test after the other; the final initialization observes nothing. */
  function SweepLog(args: seq<Arg>, f0: Impl, f1: Impl, hasValue: bool, v: nat, st: seq<Slot>): seq<Observation>
    requires WellFormed(args) && Shaped(args, st)
    decreases Count(args) - v
  {
    if v < Count(args) then
      StepLog(args, f0, f1, hasValue, v, st) + SweepLog(args, f0, f1, hasValue, v + 1, StepState(args, f0, f1, v, st))
    else []
  }

  /** Function 0 and then function 1 run on the same arguments, each in its own slot (slfet.h:322-324). */
  method ExecuteBoth(retn: ReturnData, f0: Impl, f1: Impl, args: seq<Arg>)
    requires WellFormed(args) && |retn.data| == 2
    modifies retn, Footprint(args)
    ensures State(args) == RunState(args, f0, f1, old(State(args)))
    ensures retn.data == if retn.hasValue then [Exec(args, 0, f0, old(State(args))).0,
                                                 Exec(args, 1, f1, Exec(args, 0, f0, old(State(args))).1).0]
                         else old(retn.data)
  {
    retn.Execute(0, f0, args);
    retn.Execute(1, f1, args);
  }

  /** The body of the `run_tests` loop (slfet.h:318-330) once the buffers are initialized. */
  method RunVariant(r: Reporter, f0: Impl, f1: Impl, hasValue: bool, args: seq<Arg>, name: string)
    requires WellFormed(args)
    modifies r, Footprint(args)
    ensures State(args) == RunState(args, f0, f1, old(State(args)))
    ensures r.log == old(r.log) + RunLog(args, f0, f1, hasValue, name, old(State(args)))
    ensures r.testName == name
  {
    ghost var st := State(args);
    r.SetTestName(name);
    var retn := new ReturnData(hasValue);
    assert unchanged(Footprint(args));
    assert State(args) == st;
    ExecuteAndCheck(r, retn, f0, f1, args);
  }

  /** Both executions into a fresh result holder, then the checks (slfet.h:322-329). */
  method ExecuteAndCheck(r: Reporter, retn: ReturnData, f0: Impl, f1: Impl, args: seq<Arg>)
    requires WellFormed(args) && |retn.data| == 2
    modifies r`log, retn, Footprint(args)
    ensures State(args) == RunState(args, f0, f1, old(State(args)))
    ensures r.log == old(r.log) + RunLog(args, f0, f1, retn.hasValue, r.testName, old(State(args)))
  {
    ghost var st := State(args);
    ExecuteBoth(retn, f0, f1, args);
    ghost var x0 := Exec(args, 0, f0, st);
    ghost var x1 := Exec(args, 1, f1, x0.1);
    ghost var logged := r.log;
    ghost var returned := ReturnCheck(retn.hasValue, x0.0, x1.0, r.testName);
    assert ReturnCheck(retn.hasValue, retn.data[0], retn.data[1], r.testName) == returned;
    CheckOut(r, retn, args);
    AppendAssoc(logged, returned, OutputChecks(args, x1.1, r.testName));
  }

  lemma AppendAssoc<T>(a: seq<T>, b: seq<T>, c: seq<T>)
    ensures a + b + c == a + (b + c)
  {
  }

  /**
    `run_tests` (slfet.h:313-331): counts variants up from 0 while
    `init_args` leaves nothing over; names each test after its description,
    executes function 0 and then function 1, and checks the return values and
    the buffers of every output and in/out argument.
  */
  method RunTests(r: Reporter, f0: Impl, f1: Impl, hasValue: bool, args: seq<Arg>)
    requires WellFormed(args)
    modifies r, Footprint(args)
    ensures State(args) == SweepState(args, f0, f1, 0, old(State(args)))
    ensures r.log == old(r.log) + SweepLog(args, f0, f1, hasValue, 0, old(State(args)))
    ensures r.testName == Description(args, Count(args) - 1)
  {
    ghost var pre := State(args);
    ghost var final := SweepState(args, f0, f1, 0, pre);
    ghost var total := SweepLog(args, f0, f1, hasValue, 0, pre);
    ghost var logged0 := r.log;
    var desc: string;
    var variant := 0;
    var rest;
    rest, desc := InitArgs(args, variant);
    assert r.log == logged0;
    ghost var named := r.testName;
    while rest == 0
      invariant variant <= Count(args) && rest == variant / Count(args)
      invariant Shaped(args, pre)
      invariant desc == Description(args, variant)
      invariant State(args) == InitState(args, variant, pre)
      invariant final == SweepState(args, f0, f1, variant, pre)
      invariant logged0 + total == r.log + SweepLog(args, f0, f1, hasValue, variant, pre)
      invariant r.testName == named
      invariant variant > 0 ==> named == Description(args, variant - 1)
      decreases Count(args) - variant
    {
      Arith.DivZeroIff(variant, Count(args));
      ghost var s := StepState(args, f0, f1, variant, pre);
      named := desc;
      rest, desc := Turn(r, f0, f1, hasValue, args, variant, desc, pre);
      pre := s;
      variant := variant + 1;
    }
    Arith.DivZeroIff(variant, Count(args));
    assert variant == Count(args) && named == Description(args, Count(args) - 1);
    SweepDone(args, f0, f1, hasValue, variant, pre);
    assert State(args) == final && r.log == logged0 + total;
  }

  /** Once the counter reaches the number of variants the sweep only initializes. */
  lemma SweepDone(args: seq<Arg>, f0: Impl, f1: Impl, hasValue: bool, v: nat, st: seq<Slot>)
    requires WellFormed(args) && Shaped(args, st) && v >= Count(args)
    ensures SweepState(args, f0, f1, v, st) == InitState(args, v, st)
    ensures SweepLog(args, f0, f1, hasValue, v, st) == []
  {
  }

  /**
    One pass of the `run_tests` loop: the test of variant `v`, then the
    initialization for `v + 1`. What it adds to the log and leaves in the
    buffers is the first step of the sweep from `v`.
  */
  method Turn(r: Reporter, f0: Impl, f1: Impl, hasValue: bool, args: seq<Arg>, v: nat, desc: string,
              ghost pre: seq<Slot>)
    returns (rest: nat, next: string)
    requires WellFormed(args) && Shaped(args, pre) && v < Count(args)
    requires desc == Description(args, v) && State(args) == InitState(args, v, pre)
    modifies r, Footprint(args)
    ensures rest == (v + 1) / Count(args) && next == Description(args, v + 1)
    ensures State(args) == InitState(args, v + 1, StepState(args, f0, f1, v, pre))
    ensures SweepState(args, f0, f1, v + 1, StepState(args, f0, f1, v, pre)) == SweepState(args, f0, f1, v, pre)
    ensures r.log + SweepLog(args, f0, f1, hasValue, v + 1, StepState(args, f0, f1, v, pre))
            == old(r.log) + SweepLog(args, f0, f1, hasValue, v, pre)
    ensures r.testName == desc
  {
    ghost var s := StepState(args, f0, f1, v, pre);
    SweepUnfold(args, f0, f1, hasValue, v, pre);
    ghost var logged := r.log;
    RunVariant(r, f0, f1, hasValue, args, desc);
    ghost var ran := r.log;
    rest, next := InitArgs(args, v + 1);
    assert r.log == ran;
    AppendAssoc(logged, StepLog(args, f0, f1, hasValue, v, pre), SweepLog(args, f0, f1, hasValue, v + 1, s));
  }

  /** One turn of the sweep: the variant's test, then the sweep from the next variant. */
  lemma SweepUnfold(args: seq<Arg>, f0: Impl, f1: Impl, hasValue: bool, v: nat, st: seq<Slot>)
    requires WellFormed(args) && Shaped(args, st) && v < Count(args)
    ensures SweepState(args, f0, f1, v, st) == SweepState(args, f0, f1, v + 1, StepState(args, f0, f1, v, st))
    ensures SweepLog(args, f0, f1, hasValue, v, st)
            == StepLog(args, f0, f1, hasValue, v, st) + SweepLog(args, f0, f1, hasValue, v + 1, StepState(args, f0, f1, v, st))
  {
  }
}

=== FILE: harness_props.dfy ===
/**
  What the `run_tests` sweep of include/slfet.h promises, stated about the
  value-level functions `RunState`/`RunLog`, `StepState`/`StepLog` and
  `SweepState`/`SweepLog` that the methods of module `Harness` are proved
  to follow: how long the log is and which test each observation belongs
  to, what the test name is, when a test passes, that comparing a function
  with itself never fails, which contents the buffers are left with, and
  that every combination of initializers is tried exactly once.
*/
module HarnessProps {
  import Arith
  import Variants
  import opened Initializer
  import opened Harness

  // ---- Size and order of the log -------------------------------------------

  /** How many of the first `k` arguments are compared after a test. */
  function ComparedUpTo(args: seq<Arg>, k: nat): (n: nat)
    requires k <= |args|
    ensures n <= k
  {
    if k == 0 then 0 else ComparedUpTo(args, k - 1) + (if args[k - 1].Compared() then 1 else 0)
  }

  /** The number of observations one test records: one per return value pair, one per compared argument. */
  function PerTest(args: seq<Arg>, hasValue: bool): nat
  {
    (if hasValue then 1 else 0) + ComparedUpTo(args, |args|)
  }

  /** `check_out` on the arguments observes each compared argument once, all under the test's name, tagged "output". */
  lemma {:induction false} OutputChecksShape(args: seq<Arg>, st: seq<Slot>, name: string, k: nat)
    requires Shaped(args, st) && k <= |args|
    ensures |OutputChecksUpTo(args, st, name, k)| == ComparedUpTo(args, k)
    ensures forall i :: 0 <= i < |OutputChecksUpTo(args, st, name, k)| ==>
              OutputChecksUpTo(args, st, name, k)[i].test == name &&
              OutputChecksUpTo(args, st, name, k)[i].tag == "output"
  {
    if k > 0 {
      OutputChecksShape(args, st, name, k - 1);
    }
  }

  /**
    One test records `PerTest` observations, all under its own name: the
    return comparison first (when there is one), then the outputs.
  */
  lemma RunShape(args: seq<Arg>, f0: Impl, f1: Impl, hasValue: bool, name: string, st: seq<Slot>)
    requires Shaped(args, st)
    ensures |RunLog(args, f0, f1, hasValue, name, st)| == PerTest(args, hasValue)
    ensures Names(RunLog(args, f0, f1, hasValue, name, st)) == Repeat(name, PerTest(args, hasValue))
    ensures hasValue ==> RunLog(args, f0, f1, hasValue, name, st)[0].tag == "return"
  {
    OutputChecksShape(args, RunState(args, f0, f1, st), name, |args|);
  }

  /** The test names of a list of observations. */
  function Names(obs: seq<Observation>): (ns: seq<string>)
    ensures |ns| == |obs| && forall i :: 0 <= i < |obs| ==> ns[i] == obs[i].test
  {
    seq(|obs|, i requires 0 <= i < |obs| => obs[i].test)
  }

  lemma NamesAppend(a: seq<Observation>, b: seq<Observation>)
    ensures Names(a + b) == Names(a) + Names(b)
  {
    assert forall i :: 0 <= i < |a + b| ==> Names(a + b)[i] == (Names(a) + Names(b))[i];
  }

  /** `n` copies of one name. */
  function Repeat(name: string, n: nat): (ns: seq<string>)
    ensures |ns| == n && forall i :: 0 <= i < n ==> ns[i] == name
  {
    seq(n, _ => name)
  }

  /** The names under which the variants from `v` on record: `p` times each description, in counter order. */
  function Schedule(args: seq<Arg>, p: nat, v: nat): seq<string>
    requires WellFormed(args)
    decreases Count(args) - v
  {
    if v < Count(args) then Repeat(Description(args, v), p) + Schedule(args, p, v + 1) else []
  }

  /** The schedule holds `p` names for each variant still to come. */
  lemma {:induction false} ScheduleLength(args: seq<Arg>, p: nat, v: nat)
    requires WellFormed(args) && v <= Count(args)
    ensures |Schedule(args, p, v)| == (Count(args) - v) * p
    decreases Count(args) - v
  {
    if v < Count(args) {
      ScheduleLength(args, p, v + 1);
      ScheduleLengthStep(args, p, v);
    }
  }

  lemma ScheduleLengthStep(args: seq<Arg>, p: nat, v: nat)
    requires WellFormed(args) && v < Count(args)
    requires |Schedule(args, p, v + 1)| == (Count(args) - (v + 1)) * p
    ensures |Schedule(args, p, v)| == (Count(args) - v) * p
  {
    var n := Count(args) - v;
    assert |Schedule(args, p, v)| == p + (n - 1) * p;
    Arith.MulSucc(n - 1, p);
  }

  /**
    The log of the sweep from variant `v` is one block of `PerTest`
    observations per variant, in counter order, each under the variant's
    description.
  */
  lemma {:induction false} LogFollowsSchedule(args: seq<Arg>, f0: Impl, f1: Impl, hasValue: bool, v: nat, st: seq<Slot>)
    requires WellFormed(args) && Shaped(args, st)
    ensures Names(SweepLog(args, f0, f1, hasValue, v, st)) == Schedule(args, PerTest(args, hasValue), v)
    decreases Count(args) - v
  {
    if v < Count(args) {
      LogFollowsSchedule(args, f0, f1, hasValue, v + 1, StepState(args, f0, f1, v, st));
      ScheduleStep(args, f0, f1, hasValue, v, st);
    } else {
      SweepDone(args, f0, f1, hasValue, v, st);
    }
  }

  /** If the log from variant `v + 1` follows the schedule, so does the log from `v`. */
  lemma ScheduleStep(args: seq<Arg>, f0: Impl, f1: Impl, hasValue: bool, v: nat, st: seq<Slot>)
    requires WellFormed(args) && Shaped(args, st) && v < Count(args)
    requires Names(SweepLog(args, f0, f1, hasValue, v + 1, StepState(args, f0, f1, v, st)))
             == Schedule(args, PerTest(args, hasValue), v + 1)
    ensures Names(SweepLog(args, f0, f1, hasValue, v, st)) == Schedule(args, PerTest(args, hasValue), v)
  {
    var head := StepLog(args, f0, f1, hasValue, v, st);
    var tail := SweepLog(args, f0, f1, hasValue, v + 1, StepState(args, f0, f1, v, st));
    SweepUnfold(args, f0, f1, hasValue, v, st);
    RunShape(args, f0, f1, hasValue, Description(args, v), InitState(args, v, st));
    NamesAppend(head, tail);
  }

  // ---- When a test passes ----------------------------------------------------

  /** An observation list in which nothing failed. */
  predicate AllPassed(obs: seq<Observation>)
  {
    forall i :: 0 <= i < |obs| ==> obs[i].passed
  }

  /** Every compared argument's two buffers hold the same contents. */
  predicate PairsEqual(args: seq<Arg>, st: seq<Slot>)
    requires Shaped(args, st)
  {
    forall j :: 0 <= j < |args| && args[j].Compared() ==> st[j][0] == st[j][1]
  }

  lemma {:induction false} OutputChecksPass(args: seq<Arg>, st: seq<Slot>, name: string, k: nat)
    requires Shaped(args, st) && k <= |args|
    ensures AllPassed(OutputChecksUpTo(args, st, name, k))
            <==> forall j :: 0 <= j < k && args[j].Compared() ==> st[j][0] == st[j][1]
  {
    if k > 0 {
      OutputChecksPass(args, st, name, k - 1);
      var pre := OutputChecksUpTo(args, st, name, k - 1);
      var last := OutputCheck(args[k - 1], st[k - 1], name);
      assert OutputChecksUpTo(args, st, name, k) == pre + last;
      if AllPassed(pre + last) {
        assert AllPassed(pre) by {
          forall i | 0 <= i < |pre| ensures pre[i].passed {
            assert (pre + last)[i] == pre[i];
          }
        }
        if args[k - 1].Compared() {
          assert (pre + last)[|pre|] == last[0];
        }
      }
    }
  }

  /**
    A test passes exactly when the two functions returned the same value (or
    return nothing) and left the same contents in every output and in/out
    pair.
  */
  lemma RunPassesIff(args: seq<Arg>, f0: Impl, f1: Impl, hasValue: bool, name: string, st: seq<Slot>)
    requires Shaped(args, st)
    ensures AllPassed(RunLog(args, f0, f1, hasValue, name, st))
            <==> (hasValue ==> Exec(args, 0, f0, st).0 == Exec(args, 1, f1, Exec(args, 0, f0, st).1).0)
                 && PairsEqual(args, RunState(args, f0, f1, st))
  {
    var x0 := Exec(args, 0, f0, st);
    var x1 := Exec(args, 1, f1, x0.1);
    var ret := ReturnCheck(hasValue, x0.0, x1.0, name);
    var outs := OutputChecks(args, x1.1, name);
    OutputChecksPass(args, x1.1, name, |args|);
    assert RunLog(args, f0, f1, hasValue, name, st) == ret + outs;
    if AllPassed(ret + outs) {
      assert AllPassed(outs) by {
        forall i | 0 <= i < |outs| ensures outs[i].passed {
          assert (ret + outs)[|ret| + i] == outs[i];
        }
      }
      if hasValue {
        assert (ret + outs)[0] == ret[0];
      }
    }
  }

  // ---- Comparing a function with itself --------------------------------------

  /** Running `f` first leaves every input buffer as it found it. */
  ghost predicate KeepsInputs(args: seq<Arg>, f: Impl)
  {
    forall st: seq<Slot> :: Shaped(args, st) ==>
      forall j :: 0 <= j < |args| && args[j].Input? ==> Exec(args, 0, f, st).1[j] == st[j]
  }

  /**
    An input buffer is shared: the function in slot 1 sees what the function
    in slot 0 left in it, not the initialized contents.
  */
  lemma SharedInputSeesFirstWrite(args: seq<Arg>, f0: Impl, st: seq<Slot>, j: nat)
    requires Shaped(args, st) && j < |args| && args[j].Input?
    ensures Actuals(args, 1, Exec(args, 0, f0, st).1)[j]
            == Buffer(WriteBack(st[j][0], f0(Actuals(args, 0, st)), j))
  {
  }

  /**
    When both compared buffers of every pair start equal and `f` keeps its
    inputs, running `f` in both slots sees the same arguments, so the two runs
    return the same value and leave equal pairs.
  */
  lemma SelfRunAgrees(args: seq<Arg>, f: Impl, st: seq<Slot>)
    requires Shaped(args, st) && PairsEqual(args, st) && KeepsInputs(args, f)
    ensures Exec(args, 0, f, st).0 == Exec(args, 1, f, Exec(args, 0, f, st).1).0
    ensures PairsEqual(args, RunState(args, f, f, st))
  {
    var x0 := Exec(args, 0, f, st);
    var xs0 := Actuals(args, 0, st);
    var xs1 := Actuals(args, 1, x0.1);
    assert xs1 == xs0 by {
      forall j | 0 <= j < |args|
        ensures xs1[j] == xs0[j]
      {
        if args[j].Input? {
          assert x0.1[j] == st[j];
        } else if args[j].Compared() {
          assert x0.1[j][1] == st[j][1];
        }
      }
    }
    var e := f(xs0);
    var x1 := Exec(args, 1, f, x0.1);
    forall j | 0 <= j < |args| && args[j].Compared()
      ensures x1.1[j][0] == x1.1[j][1]
    {
      assert x0.1[j][0] == WriteBack(st[j][0], e, j);
      assert x1.1[j][1] == WriteBack(x0.1[j][1], e, j);
    }
  }

  /**
    An initialization makes every in/out pair equal, whatever it held, and
    does not touch output pairs; so pairs that were equal stay equal.
  */
  lemma InitKeepsPairs(args: seq<Arg>, v: nat, st: seq<Slot>)
    requires WellFormed(args) && Shaped(args, st)
    ensures forall j :: 0 <= j < |args| && args[j].InOut? ==> InitState(args, v, st)[j][0] == InitState(args, v, st)[j][1]
    ensures forall j :: 0 <= j < |args| && args[j].Output? ==> InitState(args, v, st)[j] == st[j]
    ensures PairsEqual(args, st) ==> PairsEqual(args, InitState(args, v, st))
  {
  }

  /**
    The sweep that compares a function with itself reports no failure, as
    long as the function keeps its inputs and the output pairs start equal
    (in/out pairs are made equal by every initialization).
  */
  lemma {:induction false} SelfSweepPasses(args: seq<Arg>, f: Impl, hasValue: bool, v: nat, st: seq<Slot>)
    requires WellFormed(args) && Shaped(args, st) && PairsEqual(args, st) && KeepsInputs(args, f)
    ensures AllPassed(SweepLog(args, f, f, hasValue, v, st))
    decreases Count(args) - v
  {
    if v < Count(args) {
      SelfStepPasses(args, f, hasValue, v, st);
      SelfSweepPasses(args, f, hasValue, v + 1, StepState(args, f, f, v, st));
      SweepUnfold(args, f, f, hasValue, v, st);
      AllPassedAppend(StepLog(args, f, f, hasValue, v, st),
                      SweepLog(args, f, f, hasValue, v + 1, StepState(args, f, f, v, st)));
    } else {
      SweepDone(args, f, f, hasValue, v, st);
    }
  }

  /** One variant that compares `f` with itself passes and leaves the pairs equal for the next. */
  lemma SelfStepPasses(args: seq<Arg>, f: Impl, hasValue: bool, v: nat, st: seq<Slot>)
    requires WellFormed(args) && Shaped(args, st) && PairsEqual(args, st) && KeepsInputs(args, f)
    ensures AllPassed(StepLog(args, f, f, hasValue, v, st))
    ensures PairsEqual(args, StepState(args, f, f, v, st))
  {
    var init := InitState(args, v, st);
    InitKeepsPairs(args, v, st);
    SelfRunAgrees(args, f, init);
    RunPassesIff(args, f, f, hasValue, Description(args, v), init);
  }

  lemma AllPassedAppend(a: seq<Observation>, b: seq<Observation>)
    requires AllPassed(a) && AllPassed(b)
    ensures AllPassed(a + b)
  {
    forall i | 0 <= i < |a + b|
      ensures (a + b)[i].passed
    {
      if i >= |a| {
        assert (a + b)[i] == b[i - |a|];
      }
    }
  }

  // ---- The test name -------------------------------------------------------

  /**
    The names the first `k` arguments add for variant `v`, in declaration
    order: every input its selected name, every in/out its selected name
    unless that is empty.
  */
  function Contributed(args: seq<Arg>, v: nat, k: nat): seq<string>
    requires WellFormed(args) && k <= |args|
  {
    if k == 0 then []
    else
      var rest := Contributed(args, v, k - 1);
      match args[k - 1]
      case Input(_, _, inits) => rest + [Name(inits[Digit(args, v, k - 1)])]
      case InOut(_, _, _, inits) =>
        var name := Name(inits[Digit(args, v, k - 1)]);
        if name == [] then rest else rest + [name]
      case _ => rest
  }

  /** Names with `" vs "` between neighbours. */
  function Separated(ns: seq<string>): string
  {
    if ns == [] then ""
    else if |ns| == 1 then ns[0]
    else Separated(ns[..|ns| - 1]) + " vs " + ns[|ns| - 1]
  }

  /**
    The description starts empty and, as long as no input selects an empty
    name, ends as the contributed names separated by `" vs "`.
  */
  lemma {:induction false} DescriptionSeparatesNames(args: seq<Arg>, v: nat, k: nat)
    requires WellFormed(args) && k <= |args|
    requires forall i :: 0 <= i < |Contributed(args, v, k)| ==> Contributed(args, v, k)[i] != []
    ensures DescriptionUpTo(args, v, k) == Separated(Contributed(args, v, k))
  {
    if k > 0 {
      assert Contributed(args, v, k)[..|Contributed(args, v, k - 1)|] == Contributed(args, v, k - 1);
      DescriptionSeparatesNames(args, v, k - 1);
      DescriptionStep(args, v, k);
    }
  }

  /** If the first `k - 1` arguments give the separated names, so do the first `k`. */
  lemma DescriptionStep(args: seq<Arg>, v: nat, k: nat)
    requires WellFormed(args) && 0 < k <= |args|
    requires forall i :: 0 <= i < |Contributed(args, v, k)| ==> Contributed(args, v, k)[i] != []
    requires DescriptionUpTo(args, v, k - 1) == Separated(Contributed(args, v, k - 1))
    ensures DescriptionUpTo(args, v, k) == Separated(Contributed(args, v, k))
  {
    var rest, ns := Contributed(args, v, k - 1), Contributed(args, v, k);
    assert ns[..|rest|] == rest;
    if |ns| > |rest| {
      SeparatedAppend(rest, ns[|ns| - 1]);
      assert ns == rest + [ns[|ns| - 1]];
    }
  }

  /** Joining one more non-empty name onto separated non-empty names separates them all. */
  lemma SeparatedAppend(ns: seq<string>, name: string)
    requires forall i :: 0 <= i < |ns| ==> ns[i] != []
    ensures Join(Separated(ns), name) == Separated(ns + [name])
  {
    assert (ns + [name])[..|ns|] == ns;
    if |ns| == 1 {
      assert Separated(ns) == ns[0];
    }
  }

  // ---- What the sweep leaves behind and what it covers -----------------------

  /** The list sizes of the arguments that carry an initializer list, in declaration order. */
  function ListSizes(args: seq<Arg>): seq<nat>
  {
    if args == [] then []
    else (if args[0].Varying() then [|args[0].inits|] else []) + ListSizes(args[1..])
  }

  /** The number of variants is the product of those list sizes; outputs and plain values multiply by nothing. */
  lemma {:induction false} CountIsProduct(args: seq<Arg>)
    requires WellFormed(args)
    ensures Count(args) == Variants.Product(ListSizes(args))
    decreases |args|
  {
    if args != [] {
      WellFormedTail(args);
      CountIsProduct(args[1..]);
      CountStep(args);
    }
  }

  lemma WellFormedTail(args: seq<Arg>)
    requires WellFormed(args) && args != []
    ensures WellFormed(args[1..])
  {
    var t := args[1..];
    forall j, k | 0 <= j < |t| && 0 <= k < |t| && j != k
      ensures Separate(t, j, k)
    {
      assert Separate(args, j + 1, k + 1);
    }
  }

  lemma CountStep(args: seq<Arg>)
    requires WellFormed(args) && args != [] && WellFormed(args[1..])
    requires Count(args[1..]) == Variants.Product(ListSizes(args[1..]))
    ensures Count(args) == Variants.Product(ListSizes(args))
  {
    assert Radices(args)[1..] == Radices(args[1..]);
    var head: seq<nat> := if args[0].Varying() then [|args[0].inits|] else [];
    assert ListSizes(args) == head + ListSizes(args[1..]);
    Variants.ProductAppend(head, ListSizes(args[1..]));
  }


  /**
    The loop ends by initializing with the counter equal to the number of
    variants, which selects the first initializer everywhere: afterwards every
    input and both buffers of every in/out pair hold what the first
    initializer of their list produces.
  */
  lemma {:induction false} SweepLeavesFirstInitializer(args: seq<Arg>, f0: Impl, f1: Impl,
                                                     v: nat, st: seq<Slot>, j: nat)
    requires Watching(args, v, st, j)
    ensures SweepState(args, f0, f1, v, st)[j] == InitSlot(args[j], 0, st[j])
    decreases Count(args) - v
  {
    if v == Count(args) {
      FinalInit(args, f0, f1, v, st, j);
    } else {
      var s := StepState(args, f0, f1, v, st);
      assert Watching(args, v + 1, s, j);
      SweepLeavesFirstInitializer(args, f0, f1, v + 1, s, j);
      FirstInitializerStep(args, f0, f1, v, st, j);
    }
  }

  /** The sweep from counter `v` over the buffers `st`, followed for the input or in/out argument `j`. */
  predicate Watching(args: seq<Arg>, v: nat, st: seq<Slot>, j: nat)
  {
    WellFormed(args) && Shaped(args, st) && v <= Count(args) && j < |args| && args[j].Varying()
  }

  /** If the sweep from `v + 1` ends on the first initializer for argument `j`, so does the sweep from `v`. */
  lemma FirstInitializerStep(args: seq<Arg>, f0: Impl, f1: Impl, v: nat, st: seq<Slot>, j: nat)
    requires Watching(args, v, st, j) && v < Count(args)
    requires SweepState(args, f0, f1, v + 1, StepState(args, f0, f1, v, st))[j]
             == InitSlot(args[j], 0, StepState(args, f0, f1, v, st)[j])
    ensures SweepState(args, f0, f1, v, st)[j] == InitSlot(args[j], 0, st[j])
  {
    var s := StepState(args, f0, f1, v, st);
    SweepUnfold(args, f0, f1, false, v, st);
    InitSlotVarying(args[j], 0, s[j], st[j]);
  }

  /** An input or in/out argument's new contents do not depend on its old ones. */
  lemma InitSlotVarying(a: Arg, d: nat, s1: Slot, s2: Slot)
    requires ArgOk(a) && a.Varying() && d < |a.inits| && SlotShaped(a, s1) && SlotShaped(a, s2)
    ensures InitSlot(a, d, s1) == InitSlot(a, d, s2)
  {
  }

  /** The initialization with the counter at the number of variants selects the first initializer. */
  lemma FinalInit(args: seq<Arg>, f0: Impl, f1: Impl, v: nat, st: seq<Slot>, j: nat)
    requires WellFormed(args) && Shaped(args, st) && v == Count(args) && j < |args| && args[j].Varying()
    ensures SweepState(args, f0, f1, v, st)[j] == InitSlot(args[j], 0, st[j])
  {
    SweepDone(args, f0, f1, false, v, st);
    Variants.TerminalDigitsZero(Radices(args), j);
  }

  /** Variant `v` selects initializer `ds[j]` for every argument `j`. */
  predicate Selects(args: seq<Arg>, v: nat, ds: seq<nat>)
    requires WellFormed(args) && |ds| == |args|
  {
    forall j :: 0 <= j < |args| ==> Digit(args, v, j) == ds[j]
  }

  /**
    Every combination of initializers is tried exactly once: for each choice
    of one initializer per input and in/out argument there is a variant below
    the count that selects it, and that variant is the only one below the
    count that does.
  */
  lemma EachCombinationOnce(args: seq<Arg>, ds: seq<nat>)
    requires WellFormed(args) && Variants.ValidDigits(ds, Radices(args))
    ensures Variants.Encode(ds, Radices(args)) < Count(args)
    ensures Selects(args, Variants.Encode(ds, Radices(args)), ds)
    ensures forall v: nat :: v < Count(args) && Selects(args, v, ds) ==> v == Variants.Encode(ds, Radices(args))
  {
    var rs := Radices(args);
    var e := Variants.Encode(ds, rs);
    Variants.DecodeEncode(ds, rs);
    forall j | 0 <= j < |args|
      ensures Digit(args, e, j) == ds[j]
    {
      Variants.DecodeDigit(e, rs, j);
    }
    forall v: nat | v < Count(args) && Selects(args, v, ds)
      ensures v == e
    {
      SameDigitsSameVariant(args, v, e);
    }
  }

  /** Two variants below the count that select the same initializer for every argument are equal. */
  lemma SameDigitsSameVariant(args: seq<Arg>, v1: nat, v2: nat)
    requires WellFormed(args) && v1 < Count(args) && v2 < Count(args)
    requires forall j :: 0 <= j < |args| ==> Digit(args, v1, j) == Digit(args, v2, j)
    ensures v1 == v2
  {
    var rs := Radices(args);
    forall j | 0 <= j < |rs|
      ensures Variants.DigitAt(v1, rs, j) == Variants.DigitAt(v2, rs, j)
    {
      assert Digit(args, v1, j) == Digit(args, v2, j);
    }
    Variants.SameDigitsSameCounter(v1, v2, rs);
  }
}

=== FILE: initializer.dfy ===
/**
  The sample initializer of numeric inputs, `num_init_t`, with its range
  folding and buffer filling, together with the `init_test_data` overloads
  and `to_string` that name an initializer (include/slfet.h:35-95).

  `Int` is taken to be C++ `int` (the only instantiation the repository uses),
  so the constructor's default clamp range is the 32-bit range. Arithmetic is
  on unbounded integers: see the README for the overflow cases left out.
*/
module Initializer {
  import Arith

  /** The representable range of a C++ integer type, as `std::numeric_limits` gives it. */
  datatype IntType = IntType(lo: int, hi: int)
  {
    predicate Contains(x: int) { lo <= x <= hi }
  }

  const Int32 := IntType(-0x8000_0000, 0x7fff_ffff)
  const UInt32 := IntType(0, 0xffff_ffff)
  const Int64 := IntType(-0x8000_0000_0000_0000, 0x7fff_ffff_ffff_ffff)
  const UInt64 := IntType(0, 0xffff_ffff_ffff_ffff)

  /** Whether a type's (non-empty) range lies within `int`'s, so that casting its limits to `int` keeps them. */
  predicate NoWiderThanInt(t: IntType)
  {
    Int32.lo <= t.lo <= t.hi <= Int32.hi
  }

  /** `(int)x` for an integer limit: the value in `int`'s range congruent to `x` modulo 2^32. */
  function AsInt(x: int): (r: int)
    ensures Int32.lo <= r <= Int32.hi
    decreases if x >= 0x8000_0000 then x else if x < -0x8000_0000 then -x else 0
  {
    if x >= 0x8000_0000 then AsInt(x - 0x1_0000_0000)
    else if x < -0x8000_0000 then AsInt(x + 0x1_0000_0000)
    else x
  }

  /** The closed form of `AsInt`: a Euclidean remainder. */
  lemma {:induction false} AsIntRem(x: int)
    ensures AsInt(x) == (x + 0x8000_0000) % 0x1_0000_0000 - 0x8000_0000
    decreases if x >= 0x8000_0000 then x else if x < -0x8000_0000 then -x else 0
  {
    if x >= 0x8000_0000 {
      AsIntRem(x - 0x1_0000_0000);
      Arith.ModAddMultiple(x - 0x8000_0000, 0x1_0000_0000, 1);
    } else if x < -0x8000_0000 {
      AsIntRem(x + 0x1_0000_0000);
      Arith.ModAddMultiple(x + 0x8000_0000, 0x1_0000_0000, 1);
    } else {
      Arith.DivModUnique(x + 0x8000_0000, 0x1_0000_0000, 0, x + 0x8000_0000);
    }
  }

  /** One `num_init_t<int>`: a named generator with start value, step, multiplier and clamp range. */
  datatype NumInit = NumInit(name: string, value: int, inc: int, mul: int, min: int, max: int)

  /**
    The constructor (slfet.h:45-46). Its fourth argument `m` is accepted and
    never stored: the multiplier is always 1, so every generated sequence is
    arithmetic.
  */
  function MakeNumInit(n: string, v: int, i: int := 0, m: int := 1,
                       lo: int := Int32.lo, hi: int := Int32.hi): (d: NumInit)
    ensures d.mul == 1
    ensures d.name == n && d.value == v && d.inc == i && d.min == lo && d.max == hi
  {
    NumInit(n, v, i, 1, lo, hi)
  }

  /** Whatever multiplier is passed, the constructed descriptor is the same. */
  lemma MakeNumInitIgnoresMul(n: string, v: int, i: int, m1: int, m2: int, lo: int, hi: int)
    ensures MakeNumInit(n, v, i, m1, lo, hi) == MakeNumInit(n, v, i, m2, lo, hi)
    ensures MakeNumInit(n, v) == MakeNumInit(n, v, 0, m1, Int32.lo, Int32.hi)
  {
  }

  /** C++ `%` on `int`: the remainder takes the sign of the dividend. */
  function CRem(a: int, b: int): (r: int)
    requires b > 0
  {
    if a >= 0 then a % b else -((-a) % b)
  }

  /** C++ `/` on `int`: the quotient is truncated toward zero. */
  function CQuot(a: int, b: int): int
    requires b > 0
  {
    if a >= 0 then a / b else -((-a) / b)
  }

  /**
    `CRem` is the remainder of truncating division: `a == b * CQuot(a, b) +
    CRem(a, b)`, the remainder is smaller than `b` in magnitude and has the
    sign of `a`, and the quotient is never farther from zero than `a / b`.
  */
  lemma CRemTruncates(a: int, b: int)
    requires b > 0
    ensures a == b * CQuot(a, b) + CRem(a, b)
    ensures a >= 0 ==> 0 <= CRem(a, b) < b
    ensures a < 0 ==> -b < CRem(a, b) <= 0
    ensures 0 <= b * CQuot(a, b) <= a || a <= b * CQuot(a, b) <= 0
  {
    if a >= 0 {
      TruncatesNonNegative(a, b);
    } else {
      TruncatesNegative(a, b);
    }
  }

  lemma TruncatesNonNegative(a: int, b: int)
    requires a >= 0 && b > 0
    ensures a == b * CQuot(a, b) + CRem(a, b)
    ensures 0 <= CRem(a, b) < b && 0 <= b * CQuot(a, b) <= a
  {
    Arith.DivModIdentity(a, b);
    Arith.MulMono(b, 0, a / b);
  }

  lemma TruncatesNegative(a: int, b: int)
    requires a < 0 && b > 0
    ensures a == b * CQuot(a, b) + CRem(a, b)
    ensures -b < CRem(a, b) <= 0 && a <= b * CQuot(a, b) <= 0
  {
    var q := (-a) / b;
    Arith.DivModIdentity(-a, b);
    Arith.MulMono(b, 0, q);
    assert b * CQuot(a, b) == -(b * q) by {
      assert CQuot(a, b) == -q;
      assert b * -q == -(b * q);
    }
  }

  /**
    `in_range` (slfet.h:48-53): folds any integer into `[min, max]`. Below
    `min` the distance to `min` is taken modulo the range width and subtracted
    from `max`; otherwise the distance is taken modulo the width and added to
    `min`. Both remainders are of non-negative operands.
  */
  function InRange(val: int, min: int, max: int): (r: int)
    requires max + 1 - min > 0
    ensures min <= r <= max
  {
    if val < min then max - CRem(min - val, max + 1 - min)
    else min + CRem(val - min, max + 1 - min)
  }

  /** A value already inside the range is left as it is. */
  lemma InRangeFixed(val: int, min: int, max: int)
    requires min <= val <= max
    ensures InRange(val, min, max) == val
  {
    Arith.DivModUnique(val - min, max + 1 - min, 0, val - min);
  }

  /** Folding twice is folding once. */
  lemma InRangeIdempotent(val: int, min: int, max: int)
    requires max + 1 - min > 0
    ensures InRange(InRange(val, min, max), min, max) == InRange(val, min, max)
  {
    InRangeFixed(InRange(val, min, max), min, max);
  }

  /** One past the top folds to the bottom; above `min` the fold repeats with the range width. */
  lemma InRangeAbove(val: int, min: int, max: int)
    requires max + 1 - min > 0 && val >= min
    ensures InRange(max + 1, min, max) == min
    ensures InRange(val + (max + 1 - min), min, max) == InRange(val, min, max)
  {
    Arith.DivExact(max + 1 - min, 1);
    Arith.ModAddMultiple(val - min, max + 1 - min, 1);
  }

  /**
    Below `min`, the value `min - k` lands on `max - k mod width`. Hence one
    below the bottom lands one below the top (not on the top), and a whole
    width below the bottom lands on the top.
  */
  lemma InRangeBelow(k: int, min: int, max: int)
    requires max + 1 - min > 0 && k > 0
    ensures InRange(min - k, min, max) == max - k % (max + 1 - min)
    ensures max + 1 - min > 1 ==> InRange(min - 1, min, max) == max - 1
    ensures InRange(min - (max + 1 - min), min, max) == max
  {
    var w := max + 1 - min;
    if w > 1 {
      Arith.DivModUnique(1, w, 0, 1);
    }
    Arith.DivExact(w, 1);
  }

  /**
    Across `min` the fold is not periodic: when the range holds at least two
    values, `min - 1` and `min - 1 + width` (which is `max`) fold to different
    values.
  */
  lemma InRangeNotPeriodicBelow(min: int, max: int)
    requires max + 1 - min > 1
    ensures InRange(min - 1 + (max + 1 - min), min, max) != InRange(min - 1, min, max)
  {
    InRangeBelow(1, min, max);
    InRangeFixed(max, min, max);
  }

  /** `std::max(min, (Int)T's minimum)`, the lower clamp `init_array` uses. */
  function EffMin(d: NumInit, t: IntType): int
  {
    var lo := AsInt(t.lo);
    if d.min < lo then lo else d.min
  }

  /** `std::min(max, (Int)T's maximum)`, the upper clamp `init_array` uses. */
  function EffMax(d: NumInit, t: IntType): int
  {
    var hi := AsInt(t.hi);
    if hi < d.max then hi else d.max
  }

  /**
    For an element type no wider than `int` the casts change nothing, and the
    clamp range is the intersection of the descriptor's range with the
    element type's range.
  */
  lemma ClampIsIntersection(d: NumInit, t: IntType, x: int)
    requires NoWiderThanInt(t)
    ensures EffMin(d, t) <= x <= EffMax(d, t) <==> t.Contains(x) && d.min <= x <= d.max
  {
  }

  /**
    Over `uint32_t`, `int64_t` and `uint64_t` the casts turn the limits into
    0 and -1, so the width `_max + 1 - _min` that `in_range` divides by is
    never positive, whatever the descriptor.
  */
  lemma WiderThanIntCollapses(d: NumInit, t: IntType)
    requires t == UInt32 || t == Int64 || t == UInt64
    ensures AsInt(t.lo) == 0 && AsInt(t.hi) == -1
    ensures EffMax(d, t) + 1 - EffMin(d, t) <= 0
  {
    AsIntRem(t.lo);
    AsIntRem(t.hi);
  }

  /** Casting the limits of a type no wider than `int` keeps them. */
  lemma CastKeepsLimits(t: IntType)
    requires NoWiderThanInt(t)
    ensures AsInt(t.lo) == t.lo && AsInt(t.hi) == t.hi
  {
  }

  /**
    `init_array` is defined for `d` over element type `t`: the type is no
    wider than `int` and the clamp range is not empty, so the width is positive.
  */
  predicate Fits(d: NumInit, t: IntType) { NoWiderThanInt(t) && EffMin(d, t) <= EffMax(d, t) }

  /** The running value `val` before element `i` is stored: start, then `val * mul + inc`. */
  function Gen(d: NumInit, i: nat): int
  {
    if i == 0 then d.value else Gen(d, i - 1) * d.mul + d.inc
  }

  /** With multiplier 1 the running value is the arithmetic sequence `value + i * inc`. */
  lemma {:induction false} GenArithmetic(d: NumInit, i: nat)
    requires d.mul == 1
    ensures Gen(d, i) == d.value + i * d.inc
  {
    if i > 0 {
      GenArithmetic(d, i - 1);
    }
  }

  /** The first `n` values `init_array` stores, each folded into the clamp range. */
  function FillNum(d: NumInit, t: IntType, n: nat): (r: seq<int>)
    requires Fits(d, t)
    ensures |r| == n
    ensures forall i :: 0 <= i < n ==> t.Contains(r[i]) && d.min <= r[i] <= d.max
  {
    CastKeepsLimits(t);
    seq(n, i requires 0 <= i < n => InRange(Gen(d, i), EffMin(d, t), EffMax(d, t)))
  }

  /**
    Every descriptor the constructor builds fills element `i` with the fold of
    `value + i * inc`.
  */
  lemma FillNumArithmetic(d: NumInit, t: IntType, n: nat, i: nat)
    requires d.mul == 1 && Fits(d, t) && i < n
    ensures FillNum(d, t, n)[i] == InRange(d.value + i * d.inc, EffMin(d, t), EffMax(d, t))
  {
    GenArithmetic(d, i);
  }

  /**
    `init_array` (slfet.h:55-64): writes positions `0 .. size-1` with the
    folded running value and leaves the rest of the buffer alone.
  */
  method InitArray(d: NumInit, t: IntType, list: array<int>, size: nat)
    requires Fits(d, t) && size <= list.Length
    modifies list
    ensures list[..size] == FillNum(d, t, size)
    ensures list[size..] == old(list[size..])
  {
    var tlo, thi := AsInt(t.lo), AsInt(t.hi);
    var lo := if d.min < tlo then tlo else d.min;
    var hi := if thi < d.max then thi else d.max;
    var val := d.value;
    var i := 0;
    while i < size
      invariant 0 <= i <= size
      invariant val == Gen(d, i)
      invariant forall j :: 0 <= j < i ==> list[j] == FillNum(d, t, size)[j]
      invariant forall j :: i <= j < list.Length ==> list[j] == old(list[j])
    {
      list[i] := InRange(val, lo, hi);
      val := val * d.mul + d.inc;
      i := i + 1;
    }
  }

  /**
    An entry of an initializer list: a numeric generator, or a plain value of
    the destination's own type, which `init_test_data` assigns (slfet.h:91-95).
  */
  datatype Init = Num(d: NumInit) | Literal(v: int)

  /** Whether `init` can initialize a destination of element type `t` holding `len` elements. */
  predicate Applicable(init: Init, t: IntType, len: nat)
  {
    match init
    case Num(d) => Fits(d, t)
    case Literal(v) => len == 1 && t.Contains(v)
  }

  /** The contents a destination of `len` elements holds after `init_test_data`. */
  function Fill(init: Init, t: IntType, len: nat): (r: seq<int>)
    requires Applicable(init, t, len)
    ensures |r| == len && forall i :: 0 <= i < len ==> t.Contains(r[i])
  {
    match init
    case Num(d) => FillNum(d, t, len)
    case Literal(v) => [v]
  }

  /**
    `init_test_data` (slfet.h:73-95): a generator fills the whole C array,
    `std::array` or vector; a plain value is assigned to its scalar
    destination, modelled as a one-element buffer.
  */
  method InitTestData(init: Init, t: IntType, data: array<int>)
    requires Applicable(init, t, data.Length)
    modifies data
    ensures data[..] == Fill(init, t, data.Length)
  {
    match init {
      case Num(d) =>
        InitArray(d, t, data, data.Length);
        assert data[..] == data[..data.Length];
      case Literal(v) =>
        data[0] := v;
        assert data[..] == [v];
    }
  }

  // ---- to_string --------------------------------------------------------

  predicate IsDigit(c: char) { '0' <= c <= '9' }

  function DigitChar(d: nat): (c: char)
    requires d < 10
    ensures IsDigit(c) && c as int - '0' as int == d
  {
    ('0' as int + d) as char
  }

  /** The decimal digits of `n`, most significant first, without leading zeros. */
  function NatString(n: nat): (s: string)
    ensures |s| > 0 && forall i :: 0 <= i < |s| ==> IsDigit(s[i])
    decreases n
  {
    if n < 10 then [DigitChar(n)] else NatString(n / 10) + [DigitChar(n % 10)]
  }

  /** The number a string of decimal digits denotes. */
  function ParseNat(s: string): int
  {
    if s == [] then 0 else ParseNat(s[..|s| - 1]) * 10 + (s[|s| - 1] as int - '0' as int)
  }

  lemma {:induction false} NatStringRoundTrip(n: nat)
    ensures ParseNat(NatString(n)) == n
  {
    if n >= 10 {
      NatStringRoundTrip(n / 10);
      var s := NatString(n);
      assert s[..|s| - 1] == NatString(n / 10);
    }
  }

  /** `std::to_string` of an integer: an optional minus sign, then the decimal digits. */
  function DecimalString(v: int): (s: string)
    ensures |s| > 0 && (s[0] == '-' <==> v < 0)
  {
    if v < 0 then "-" + NatString(-v) else NatString(v)
  }

  function ParseDecimal(s: string): int
  {
    if |s| > 0 && s[0] == '-' then -ParseNat(s[1..]) else ParseNat(s)
  }

  /** The decimal rendering loses nothing: it parses back to the value. */
  lemma DecimalStringRoundTrip(v: int)
    ensures ParseDecimal(DecimalString(v)) == v
  {
    if v < 0 {
      NatStringRoundTrip(-v);
      assert DecimalString(v)[1..] == NatString(-v);
    } else {
      NatStringRoundTrip(v);
    }
  }

  /**
    `to_string` of an initializer (slfet.h:67-71, and `std::to_string` for
    plain values): a generator's own name, a plain value's decimal rendering.
  */
  function Name(init: Init): (s: string)
    ensures init.Literal? ==> |s| > 0 && ParseDecimal(s) == init.v
    ensures init.Num? ==> s == init.d.name
  {
    match init
    case Num(d) => d.name
    case Literal(v) => DecimalStringRoundTrip(v); DecimalString(v)
  }
}

=== FILE: routines.dfy ===
/**
  The example functions under test of src/routines.cpp: a vector add and a
  vector sum over `int16_t` elements, each as a plain C loop and as an SSE
  version that works on blocks of eight elements and finishes with the plain
  loop for the remainder.

  A 128-bit register is held in the lane view the code uses it at: the
  `epi16` intrinsics see eight `int16_t` lanes (`V16`), the `epi32`
  intrinsics and `_mm_cvtsi128_si32` four `int32_t` lanes (`V32`), lowest
  lane first. The unpack intrinsics are where the code changes view: each
  32-bit lane they produce joins a low and a high 16-bit lane (`JoinLanes`). Each
  intrinsic is its lane-wise integer meaning. The narrowing store of
  `a[i] + b[i]` into `int16_t` and the signed accumulations into `int` are
  two's-complement wrap-arounds (`Wrap16`, `Wrap32`).
*/
module Routines {
  import Arith

  newtype int16 = x: int | -0x8000 <= x < 0x8000
  newtype int32 = x: int | -0x8000_0000 <= x < 0x8000_0000

  // ---- Two's-complement wrap-around ----------------------------------------

  /**
    The value in `[-half, half)` congruent to `x` modulo `2 * half`: the
    modulus is subtracted or added until the value is in range.
  */
  function Wrap(x: int, half: int): (r: int)
    requires half > 0
    ensures -half <= r < half
    decreases if x >= half then x - half + 1 else if x < -half then -half - x else 0
  {
    if x >= half then Wrap(x - 2 * half, half)
    else if x < -half then Wrap(x + 2 * half, half)
    else x
  }

  /** The closed form of `Wrap`: a Euclidean remainder. */
  lemma {:induction false} WrapRem(x: int, half: int)
    requires half > 0
    ensures Wrap(x, half) == (x + half) % (2 * half) - half
    decreases if x >= half then x - half + 1 else if x < -half then -half - x else 0
  {
    if x >= half {
      WrapRem(x - 2 * half, half);
      Arith.ModAddMultiple(x - half, 2 * half, 1);
    } else if x < -half {
      WrapRem(x + 2 * half, half);
      Arith.ModAddMultiple(x + half, 2 * half, 1);
    } else {
      Arith.DivModUnique(x + half, 2 * half, 0, x + half);
    }
  }

  /** Adding a multiple of the modulus does not change the wrapped value. */
  lemma WrapShift(x: int, half: int, k: int)
    requires half > 0
    ensures Wrap(x + 2 * half * k, half) == Wrap(x, half)
  {
    WrapRem(x + 2 * half * k, half);
    WrapRem(x, half);
    Arith.ModAddMultiple(x + half, 2 * half, k);
  }

  /** A value already in range is left as it is. */
  lemma WrapFixed(x: int, half: int)
    requires half > 0 && -half <= x < half
    ensures Wrap(x, half) == x
  {
  }

  /** Wrapping an intermediate result does not change the wrapped total. */
  lemma WrapAdd(x: int, y: int, half: int)
    requires half > 0
    ensures Wrap(Wrap(x, half) + y, half) == Wrap(x + y, half)
  {
    var q := (x + half) / (2 * half);
    WrapRem(x, half);
    Arith.DivModIdentity(x + half, 2 * half);
    assert Wrap(x, half) + y == x + y + 2 * half * -q;
    WrapShift(x + y, half, -q);
  }

  /** The wrapped value differs from `x` by a multiple of the modulus `2 * half`. */
  lemma WrapCongruent(x: int, half: int)
    requires half > 0
    ensures (Wrap(x, half) - x) % (2 * half) == 0
  {
    var q := (x + half) / (2 * half);
    WrapRem(x, half);
    Arith.DivModIdentity(x + half, 2 * half);
    assert Wrap(x, half) - x == 2 * half * -q;
    Arith.DivModUnique(Wrap(x, half) - x, 2 * half, -q, 0);
  }

  /** The wrapped value is the only value in `[-half, half)` congruent to `x`. */
  lemma WrapUnique(x: int, r: int, half: int)
    requires half > 0 && -half <= r < half && (r - x) % (2 * half) == 0
    ensures Wrap(x, half) == r
  {
    var k := (r - x) / (2 * half);
    Arith.DivModIdentity(r - x, 2 * half);
    assert x == r + 2 * half * -k;
    WrapShift(r, half, -k);
  }

  /** `int16_t` conversion of an `int`. */
  function Wrap16(x: int): int16
  {
    Wrap(x, 0x8000) as int16
  }

  /** `int32_t` conversion of an `int`. */
  function Wrap32(x: int): int32
  {
    Wrap(x, 0x8000_0000) as int32
  }

  // ---- add_vec --------------------------------------------------------------

  /** What `add_vec` stores at `c[i]`: the `int` sum of two elements converted back to `int16_t`. */
  function AddElem(x: int16, y: int16): int16
  {
    Wrap16(x as int + y as int)
  }

  /** The stored element is the exact sum when it fits, and otherwise off by exactly 2^16. */
  lemma AddElemMeaning(x: int16, y: int16)
    ensures var s := x as int + y as int;
            AddElem(x, y) as int == if s >= 0x8000 then s - 0x1_0000 else if s < -0x8000 then s + 0x1_0000 else s
  {
    var s := x as int + y as int;
    if s >= 0x8000 {
      WrapShift(s - 0x1_0000, 0x8000, 1);
    } else if s < -0x8000 {
      WrapShift(s + 0x1_0000, 0x8000, -1);
    }
  }

  /**
    `add_vec_c` (src/routines.cpp:5-9): for every `i < n`, `c[i]` becomes the
    16-bit sum of `a[i]` and `b[i]`; nothing at or beyond `n` is written, and
    the inputs are read only.
  */
  method AddVecC(a: array<int16>, b: array<int16>, c: array<int16>, n: nat)
    requires n <= a.Length && n <= b.Length && n <= c.Length
    requires c != a && c != b
    modifies c
    ensures forall i :: 0 <= i < n ==> c[i] == AddElem(a[i], b[i])
    ensures c[n..] == old(c[n..])
  {
    var i := 0;
    while i < n
      invariant i <= n
      invariant forall j :: 0 <= j < i ==> c[j] == AddElem(a[j], b[j])
      invariant c[n..] == old(c[n..])
    {
      c[i] := AddElem(a[i], b[i]);
      i := i + 1;
    }
  }

  /** An `__m128i` register seen as eight `int16_t` lanes. */
  type V16 = v: seq<int16> | |v| == 8 witness [0, 0, 0, 0, 0, 0, 0, 0]

  /** An `__m128i` register seen as four `int32_t` lanes. */
  type V32 = v: seq<int32> | |v| == 4 witness [0, 0, 0, 0]

  /** `_mm_load_si128` of eight consecutive `int16_t` elements. */
  function LoadSi128(s: seq<int16>): (v: V16)
    requires |s| == 8
  {
    s
  }

  /** `_mm_add_epi16`: lane-wise addition wrapped to 16 bits. */
  function AddEpi16(x: V16, y: V16): (v: V16)
  {
    seq(8, k requires 0 <= k < 8 => AddElem(x[k], y[k]))
  }

  /** `_mm_store_si128`: writes the eight lanes to `c[i .. i + 8]`. */
  method StoreSi128(c: array<int16>, i: nat, v: V16)
    requires i + 8 <= c.Length
    modifies c
    ensures c[..] == old(c[..i]) + v + old(c[i + 8..])
  {
    forall k | 0 <= k < 8 {
      c[i + k] := v[k];
    }
    assert c[..] == old(c[..i]) + v + old(c[i + 8..]) by {
      assert forall j :: 0 <= j < c.Length ==> c[..][j] == (old(c[..i]) + v + old(c[i + 8..]))[j];
    }
  }

  /** The block loop stops at the last multiple of 8 not above `n`. */
  lemma BlockLoopEnd(n: nat, i: nat)
    requires i % 8 == 0 && i <= n < i + 8
    ensures i == n - n % 8
  {
    Arith.DivModUnique(n, 8, i / 8, n - i);
  }

  /**
    `add_vec_sse41` (src/routines.cpp:11-22): eight elements at a time with
    `_mm_add_epi16` while a whole block remains, then the plain loop for the
    remaining `n % 8`. It stores exactly what `AddVecC` stores, for every `n`.
  */
  method AddVecSse41(a: array<int16>, b: array<int16>, c: array<int16>, n: nat)
    requires n <= a.Length && n <= b.Length && n <= c.Length
    requires c != a && c != b
    modifies c
    ensures forall i :: 0 <= i < n ==> c[i] == AddElem(a[i], b[i])
    ensures c[n..] == old(c[n..])
  {
    var i := 0;
    while i + 8 <= n
      invariant i <= n && i % 8 == 0
      invariant forall j :: 0 <= j < i ==> c[j] == AddElem(a[j], b[j])
      invariant c[n..] == old(c[n..])
    {
      var vi := LoadSi128(a[i..i + 8]);
      vi := AddEpi16(vi, LoadSi128(b[i..i + 8]));
      StoreSi128(c, i, vi);
      assert forall j :: i <= j < i + 8 ==> c[j] == c[..][j] == vi[j - i];
      i := i + 8;
    }
    BlockLoopEnd(n, i);
    while i < n
      invariant n - n % 8 <= i <= n
      invariant forall j :: 0 <= j < i ==> c[j] == AddElem(a[j], b[j])
      invariant c[n..] == old(c[n..])
    {
      c[i] := AddElem(a[i], b[i]);
      i := i + 1;
    }
  }

  // ---- vec_sum --------------------------------------------------------------

  /** The exact sum of the elements. */
  function Sum(s: seq<int16>): int
  {
    if s == [] then 0 else Sum(s[..|s| - 1]) + s[|s| - 1] as int
  }

  lemma {:induction false} SumAppend(s: seq<int16>, t: seq<int16>)
    ensures Sum(s + t) == Sum(s) + Sum(t)
    decreases |t|
  {
    if t != [] {
      var u := t[..|t| - 1];
      assert (s + t)[..|s + t| - 1] == s + u;
      SumAppend(s, u);
    } else {
      assert s + t == s;
    }
  }

  /** The sum of one block of eight, element by element. */
  lemma SumOfBlock(b: seq<int16>)
    requires |b| == 8
    ensures Sum(b) == b[0] as int + b[1] as int + b[2] as int + b[3] as int
                      + b[4] as int + b[5] as int + b[6] as int + b[7] as int
  {
    assert Sum(b[..7]) == Sum(b[..6]) + b[6] as int by { assert b[..7][..6] == b[..6]; }
    assert Sum(b[..6]) == Sum(b[..5]) + b[5] as int by { assert b[..6][..5] == b[..5]; }
    assert Sum(b[..5]) == Sum(b[..4]) + b[4] as int by { assert b[..5][..4] == b[..4]; }
    assert Sum(b[..4]) == Sum(b[..3]) + b[3] as int by { assert b[..4][..3] == b[..3]; }
    assert Sum(b[..3]) == Sum(b[..2]) + b[2] as int by { assert b[..3][..2] == b[..2]; }
    assert Sum(b[..2]) == Sum(b[..1]) + b[1] as int by { assert b[..2][..1] == b[..1]; }
    assert Sum(b[..1]) == b[0] as int by { assert b[..1][..0] == []; }
  }

  /** Each element adds between -2^15 and 2^15 - 1 to the sum. */
  lemma {:induction false} SumBounds(s: seq<int16>)
    ensures -0x8000 * |s| <= Sum(s) <= 0x7fff * |s|
    decreases |s|
  {
    if s != [] {
      SumBounds(s[..|s| - 1]);
    }
  }

  /** A sum of at most 2^16 elements fits in 32 bits, so wrapping it changes nothing. */
  lemma ShortSumExact(s: seq<int16>)
    requires |s| <= 0x1_0000
    ensures Wrap32(Sum(s)) as int == Sum(s)
  {
    SumBounds(s);
    WrapFixed(Sum(s), 0x8000_0000);
  }

  /**
    `vec_sum_c` (src/routines.cpp:24-30): adds the elements one by one into an
    `int`, so it returns the sum of `a[0 .. n)` wrapped to 32 bits: exactly the
    sum whenever that fits.
  */
  method VecSumC(a: array<int16>, n: nat) returns (sum: int32)
    requires n <= a.Length
    ensures sum == Wrap32(Sum(a[..n]))
    ensures -0x8000_0000 <= Sum(a[..n]) < 0x8000_0000 ==> sum as int == Sum(a[..n])
  {
    sum := 0;
    WrapFixed(0, 0x8000_0000);
    var i := 0;
    while i < n
      invariant i <= n
      invariant sum == Wrap32(Sum(a[..i]))
    {
      assert a[..i + 1][..i] == a[..i];
      WrapAdd(Sum(a[..i]), a[i] as int, 0x8000_0000);
      sum := Wrap32(sum as int + a[i] as int);
      i := i + 1;
    }
    assert a[..i] == a[..n];
    if -0x8000_0000 <= Sum(a[..n]) < 0x8000_0000 {
      WrapFixed(Sum(a[..n]), 0x8000_0000);
    }
  }

  /** `_mm_setzero_si128`, seen as four 32-bit lanes. */
  function SetZeroSi128(): (v: V32)
  {
    [0, 0, 0, 0]
  }

  function Pow2(e: nat): (p: nat)
    ensures p > 0
  {
    if e == 0 then 1 else 2 * Pow2(e - 1)
  }

  /** Flooring division by a positive number keeps an `int16_t` in range. */
  lemma DivKeepsInt16(x: int16, d: int)
    requires d > 0
    ensures -0x8000 <= x as int / d < 0x8000
  {
    var q := x as int / d;
    Arith.DivModIdentity(x as int, d);
    if q < -0x8000 {
      Arith.MulMono(d, 1, -q);
    } else if q >= 0x8000 {
      Arith.MulMono(d, 1, q);
    }
  }

  /** One lane of `_mm_srai_epi16`: arithmetic right shift, flooring; a count above 15 shifts by 15. */
  function ShiftRightArith(x: int16, count: nat): (r: int16)
  {
    var c := if count > 15 then 15 else count;
    DivKeepsInt16(x, Pow2(c));
    (x as int / Pow2(c)) as int16
  }

  /**
    The shift rounds toward minus infinity: with `c` the clamped count, `x`
    lies in `[r * 2^c, (r + 1) * 2^c)`.
  */
  lemma ShiftRightFloors(x: int16, count: nat)
    ensures var p := Pow2(if count > 15 then 15 else count);
            var r := ShiftRightArith(x, count) as int;
            r * p <= x as int < r * p + p
  {
    Arith.DivModIdentity(x as int, Pow2(if count > 15 then 15 else count));
  }

  /** `_mm_srai_epi16`: lane-wise arithmetic right shift. */
  function SraiEpi16(x: V16, count: nat): (v: V16)
  {
    seq(8, k requires 0 <= k < 8 => ShiftRightArith(x[k], count))
  }

  /** Shifting by 15 leaves only the sign: all ones (-1) for a negative lane, zero otherwise. */
  lemma SignOfLane(x: int16)
    ensures ShiftRightArith(x, 15) == if x < 0 then -1 else 0
  {
    assert Pow2(15) == 0x8000 by {
      assert Pow2(4) == 16;
      assert Pow2(8) == 256;
      assert Pow2(12) == 4096;
    }
    if x < 0 {
      Arith.DivModUnique(x as int, 0x8000, -1, x as int + 0x8000);
    } else {
      Arith.DivModUnique(x as int, 0x8000, 0, x as int);
    }
  }

  /**
    The 32-bit lane formed by the 16-bit lane `lo` below the 16-bit lane
    `hi`: `hi` supplies the top half with its sign, `lo` the bottom half as an
    unsigned pattern.
  */
  function JoinLanes(lo: int16, hi: int16): (r: int32)
  {
    var u := if lo < 0 then lo as int + 0x1_0000 else lo as int;
    (hi as int * 0x1_0000 + u) as int32
  }

  /** The top 16 bits of the joined lane are `hi`, read signed; the bottom 16 bits are the bit pattern of `lo`. */
  lemma JoinLanesHalves(lo: int16, hi: int16)
    ensures JoinLanes(lo, hi) as int / 0x1_0000 == hi as int
    ensures JoinLanes(lo, hi) as int % 0x1_0000 == lo as int % 0x1_0000
  {
    var u := if lo < 0 then lo as int + 0x1_0000 else lo as int;
    Arith.DivModUnique(JoinLanes(lo, hi) as int, 0x1_0000, hi as int, u);
    Arith.DivModUnique(lo as int, 0x1_0000, if lo < 0 then -1 else 0, u);
  }

  /** Joining an element with its sign lane sign-extends it: the 32-bit lane holds the element itself. */
  lemma JoinSignExtends(x: int16)
    ensures JoinLanes(x, ShiftRightArith(x, 15)) as int == x as int
  {
    SignOfLane(x);
  }

  /** `_mm_unpacklo_epi16`: interleaves lanes 0-3 of `x` and `y`, read as four 32-bit lanes. */
  function UnpackLoEpi16(x: V16, y: V16): (v: V32)
  {
    seq(4, k requires 0 <= k < 4 => JoinLanes(x[k], y[k]))
  }

  /** `_mm_unpackhi_epi16`: interleaves lanes 4-7 of `x` and `y`, read as four 32-bit lanes. */
  function UnpackHiEpi16(x: V16, y: V16): (v: V32)
  {
    seq(4, k requires 0 <= k < 4 => JoinLanes(x[k + 4], y[k + 4]))
  }

  /** `_mm_add_epi32`: lane-wise addition wrapped to 32 bits. */
  function AddEpi32(x: V32, y: V32): (v: V32)
  {
    seq(4, k requires 0 <= k < 4 => Wrap32(x[k] as int + y[k] as int))
  }

  /** `_mm_cvtsi128_si32`: the lowest 32-bit lane. */
  function Cvtsi128Si32(v: V32): int32
  {
    v[0]
  }

  /** `_mm_srli_si128` by a whole number of 32-bit lanes: lanes move down, zeros come in at the top. */
  function SrliSi128(v: V32, bytes: nat): (r: V32)
    requires bytes % 4 == 0
  {
    seq(4, k requires 0 <= k < 4 => if k + bytes / 4 < 4 then v[k + bytes / 4] else 0)
  }

  /** Reading the lowest lane after zero, one, two and three 4-byte shifts reads lanes 0, 1, 2 and 3. */
  lemma LowLaneAfterShifts(v: V32)
    ensures Cvtsi128Si32(v) == v[0]
    ensures Cvtsi128Si32(SrliSi128(v, 4)) == v[1]
    ensures Cvtsi128Si32(SrliSi128(SrliSi128(v, 4), 4)) == v[2]
    ensures Cvtsi128Si32(SrliSi128(SrliSi128(SrliSi128(v, 4), 4), 4)) == v[3]
  {
  }

  /**
    What 32-bit lane `k` of `vsum` accumulates over the whole blocks of `s`:
    elements `k` and `k + 4` of each block, sign-extended.
  */
  function LaneSum(s: seq<int16>, k: nat): int
    requires k < 4 && |s| % 8 == 0
    decreases |s|
  {
    if s == [] then 0
    else
      var m := |s| - 8;
      LaneSum(s[..m], k) + s[m + k] as int + s[m + k + 4] as int
  }

  /** The four lanes together hold the sum of the whole blocks. */
  lemma {:induction false} LaneSumsTotal(s: seq<int16>)
    requires |s| % 8 == 0
    ensures LaneSum(s, 0) + LaneSum(s, 1) + LaneSum(s, 2) + LaneSum(s, 3) == Sum(s)
    decreases |s|
  {
    if s != [] {
      var m := |s| - 8;
      LaneSumsTotal(s[..m]);
      var blk := s[m..];
      assert s == s[..m] + blk;
      SumAppend(s[..m], blk);
      SumOfBlock(blk);
    }
  }

  /** The block loop keeps every 32-bit lane of `vsum` equal to its lane sum, wrapped to 32 bits. */
  predicate LanesHold(vsum: V32, s: seq<int16>)
    requires |s| % 8 == 0
  {
    forall k :: 0 <= k < 4 ==> vsum[k] == Wrap32(LaneSum(s, k))
  }

  /** One iteration of the block loop of `vec_sum_sse41` keeps `LanesHold`. */
  lemma BlockStep(vsum: V32, s: seq<int16>, blk: seq<int16>)
    requires |s| % 8 == 0 && |blk| == 8 && LanesHold(vsum, s)
    ensures |s + blk| % 8 == 0
    ensures LanesHold(AddEpi32(AddEpi32(vsum, UnpackLoEpi16(LoadSi128(blk), SraiEpi16(LoadSi128(blk), 15))),
                               UnpackHiEpi16(LoadSi128(blk), SraiEpi16(LoadSi128(blk), 15))), s + blk)
  {
    Arith.ModAddMultiple(|s|, 8, 1);
    var sn := SraiEpi16(blk, 15);
    var vl, vh := UnpackLoEpi16(blk, sn), UnpackHiEpi16(blk, sn);
    forall k | 0 <= k < 4
      ensures AddEpi32(AddEpi32(vsum, vl), vh)[k] == Wrap32(LaneSum(s + blk, k))
    {
      BlockLane(vsum, s, blk, k);
    }
  }

  /** Lane `k` of `vsum` gains elements `k` and `k + 4` of the block. */
  lemma BlockLane(vsum: V32, s: seq<int16>, blk: seq<int16>, k: nat)
    requires |s| % 8 == 0 && |blk| == 8 && k < 4 && vsum[k] == Wrap32(LaneSum(s, k))
    ensures |s + blk| % 8 == 0
    ensures AddEpi32(AddEpi32(vsum, UnpackLoEpi16(blk, SraiEpi16(blk, 15))), UnpackHiEpi16(blk, SraiEpi16(blk, 15)))[k]
            == Wrap32(LaneSum(s + blk, k))
  {
    Arith.ModAddMultiple(|s|, 8, 1);
    var sn := SraiEpi16(blk, 15);
    var vl, vh := UnpackLoEpi16(blk, sn), UnpackHiEpi16(blk, sn);
    JoinSignExtends(blk[k]);
    JoinSignExtends(blk[k + 4]);
    assert vl[k] as int == blk[k] as int && vh[k] as int == blk[k + 4] as int;
    var t := s + blk;
    assert t[..|t| - 8] == s;
    assert LaneSum(t, k) == LaneSum(s, k) + blk[k] as int + blk[k + 4] as int;
    WrapAdd2(LaneSum(s, k), blk[k] as int, blk[k + 4] as int);
  }

  /** Two wrapped additions onto a wrapped accumulator wrap the total. */
  lemma WrapAdd2(acc: int, x: int, y: int)
    ensures Wrap32(Wrap32(Wrap32(acc) as int + x) as int + y) == Wrap32(acc + x + y)
  {
    WrapAdd(acc, x, 0x8000_0000);
    WrapAdd(acc + x, y, 0x8000_0000);
  }

  /**
    The horizontal sum of src/routines.cpp:48-54: four `int32_t` additions of
    the lowest lane, shifting the register down four bytes in between, give
    the four lane sums added and wrapped to 32 bits: the block sum, wrapped.
  */
  lemma HorizontalSum(vsum: V32, s: seq<int16>)
    requires |s| % 8 == 0 && LanesHold(vsum, s)
    ensures Wrap32(Wrap32(Wrap32(Cvtsi128Si32(vsum) as int + Cvtsi128Si32(SrliSi128(vsum, 4)) as int) as int
                          + Cvtsi128Si32(SrliSi128(SrliSi128(vsum, 4), 4)) as int) as int
                   + Cvtsi128Si32(SrliSi128(SrliSi128(SrliSi128(vsum, 4), 4), 4)) as int)
            == Wrap32(Sum(s))
  {
    LowLaneAfterShifts(vsum);
    LaneSumsTotal(s);
    WrapSum4(LaneSum(s, 0), LaneSum(s, 1), LaneSum(s, 2), LaneSum(s, 3), 0x8000_0000);
  }

  /** Four wrapped additions of wrapped values wrap the exact total. */
  lemma WrapSum4(l0: int, l1: int, l2: int, l3: int, h: int)
    requires h > 0
    ensures Wrap(Wrap(Wrap(Wrap(l0, h) + Wrap(l1, h), h) + Wrap(l2, h), h) + Wrap(l3, h), h)
            == Wrap(l0 + l1 + l2 + l3, h)
  {
    WrapSum3(l0, l1, l2, h);
    WrapStep(Wrap(Wrap(Wrap(l0, h) + Wrap(l1, h), h) + Wrap(l2, h), h), l0 + l1 + l2, l3, h);
  }

  /** Three wrapped values added with wrapping wrap the exact total. */
  lemma WrapSum3(l0: int, l1: int, l2: int, h: int)
    requires h > 0
    ensures Wrap(Wrap(Wrap(l0, h) + Wrap(l1, h), h) + Wrap(l2, h), h) == Wrap(l0 + l1 + l2, h)
  {
    WrapStep(Wrap(l0, h), l0, l1, h);
    WrapStep(Wrap(Wrap(l0, h) + Wrap(l1, h), h), l0 + l1, l2, h);
  }

  /** Adding a wrapped value to the wrap of `q` and wrapping wraps the exact sum. */
  lemma WrapStep(p: int, q: int, c: int, h: int)
    requires h > 0 && p == Wrap(q, h)
    ensures Wrap(p + Wrap(c, h), h) == Wrap(q + c, h)
  {
    WrapAdd(q, Wrap(c, h), h);
    WrapAddRight(q, c, h);
  }

  /** Wrapping the right operand does not change the wrapped total either. */
  lemma WrapAddRight(x: int, y: int, half: int)
    requires half > 0
    ensures Wrap(x + Wrap(y, half), half) == Wrap(x + y, half)
  {
    WrapAdd(y, x, half);
  }

  /**
    `vec_sum_sse41` (src/routines.cpp:32-60): sign-extends each block of
    eight into four 32-bit lanes, adds the lanes horizontally, then adds the
    remaining `n % 8` elements one by one. It returns what `VecSumC` returns,
    for every `n`.
  */
  method VecSumSse41(a: array<int16>, n: nat) returns (sum: int32)
    requires n <= a.Length
    ensures sum == Wrap32(Sum(a[..n]))
    ensures -0x8000_0000 <= Sum(a[..n]) < 0x8000_0000 ==> sum as int == Sum(a[..n])
  {
    var zero := SetZeroSi128();
    var vsum := zero;
    WrapFixed(0, 0x8000_0000);
    var i := 0;
    while i + 8 <= n
      invariant i <= n && i % 8 == 0
      invariant LanesHold(vsum, a[..i])
    {
      var vi := LoadSi128(a[i..i + 8]);
      var sn := SraiEpi16(vi, 15);
      var vl := UnpackLoEpi16(vi, sn);
      var vh := UnpackHiEpi16(vi, sn);
      BlockStep(vsum, a[..i], a[i..i + 8]);
      assert a[..i] + a[i..i + 8] == a[..i + 8];
      vsum := AddEpi32(vsum, vl);
      vsum := AddEpi32(vsum, vh);
      i := i + 8;
    }
    BlockLoopEnd(n, i);
    HorizontalSum(vsum, a[..i]);
    sum := Cvtsi128Si32(vsum);
    vsum := SrliSi128(vsum, 4);
    sum := Wrap32(sum as int + Cvtsi128Si32(vsum) as int);
    vsum := SrliSi128(vsum, 4);
    sum := Wrap32(sum as int + Cvtsi128Si32(vsum) as int);
    vsum := SrliSi128(vsum, 4);
    sum := Wrap32(sum as int + Cvtsi128Si32(vsum) as int);
    while i < n
      invariant n - n % 8 <= i <= n
      invariant sum == Wrap32(Sum(a[..i]))
    {
      assert a[..i + 1][..i] == a[..i];
      WrapAdd(Sum(a[..i]), a[i] as int, 0x8000_0000);
      sum := Wrap32(sum as int + a[i] as int);
      i := i + 1;
    }
    assert a[..i] == a[..n];
    if -0x8000_0000 <= Sum(a[..n]) < 0x8000_0000 {
      WrapFixed(Sum(a[..n]), 0x8000_0000);
    }
  }
}

=== FILE: variants.dfy ===
/**
  The variant counter of `run_tests` read as a mixed-radix number
  (include/slfet.h:107-117, 132-145, 234-239, 318).

  Each argument of a test carries a radix: the size of its initializer list
  for an input or in/out wrapper, and 1 for every other argument. Walking the
  arguments in declaration order, each one takes the digit `variant % radix`
  and leaves `variant / radix` for the next; a radix of 1 takes digit 0 and
  leaves the counter as it is, which is what skipping the argument does. The
  first-declared argument is therefore the least significant digit.
*/
module Variants {
  import Arith

  /** Every radix is at least 1 (no initializer list is empty). */
  predicate Positive(rs: seq<nat>)
  {
    forall i :: 0 <= i < |rs| ==> rs[i] > 0
  }

  /** The number of variants a sweep over radices `rs` runs. */
  function Product(rs: seq<nat>): (p: nat)
    ensures Positive(rs) ==> p > 0
  {
    if rs == [] then 1 else rs[0] * Product(rs[1..])
  }

  lemma {:induction false} ProductAppend(a: seq<nat>, b: seq<nat>)
    ensures Product(a + b) == Product(a) * Product(b)
  {
    if a != [] {
      assert (a + b)[0] == a[0] && (a + b)[1..] == a[1..] + b;
      ProductAppend(a[1..], b);
      Arith.MulAssoc(a[0], Product(a[1..]), Product(b));
    } else {
      assert a + b == b;
    }
  }

  /** The product over the first `j + 1` radices adds radix `j` to the product over the first `j`. */
  lemma ProductPrefix(rs: seq<nat>, j: nat)
    requires j < |rs|
    ensures Product(rs[..j + 1]) == Product(rs[..j]) * rs[j]
  {
    assert rs[..j + 1] == rs[..j] + [rs[j]];
    ProductAppend(rs[..j], [rs[j]]);
  }

  /** The digit a counter value `v` selects at position `j`. */
  function DigitAt(v: nat, rs: seq<nat>, j: nat): (d: nat)
    requires Positive(rs) && j < |rs|
    ensures d < rs[j]
  {
    (v / Product(rs[..j])) % rs[j]
  }

  /** A digit tuple fits the radices. */
  predicate ValidDigits(ds: seq<nat>, rs: seq<nat>)
  {
    |ds| == |rs| && forall i :: 0 <= i < |rs| ==> ds[i] < rs[i]
  }

  /**
    Consumes the digits head first, the way the argument walk does, and
    returns them with the quotient that is left over.
  */
  function Decode(v: nat, rs: seq<nat>): (r: (seq<nat>, nat))
    requires Positive(rs)
    ensures ValidDigits(r.0, rs)
    decreases rs
  {
    if rs == [] then ([], v)
    else
      var tail := Decode(v / rs[0], rs[1..]);
      ([v % rs[0]] + tail.0, tail.1)
  }

  /** The counter value whose digits are `ds`: the first digit is the least significant. */
  function Encode(ds: seq<nat>, rs: seq<nat>): (v: nat)
    requires ValidDigits(ds, rs)
    ensures v < Product(rs)
  {
    if rs == [] then 0
    else
      var e := Encode(ds[1..], rs[1..]);
      Arith.DigitBound(ds[0], rs[0], e, Product(rs[1..]));
      ds[0] + rs[0] * e
  }

  /** What the walk leaves over is the counter divided by the product of all radices. */
  lemma {:induction false} DecodeRest(v: nat, rs: seq<nat>)
    requires Positive(rs)
    ensures Decode(v, rs).1 == v / Product(rs)
    decreases rs
  {
    if rs != [] {
      DecodeRest(v / rs[0], rs[1..]);
      Arith.DivDiv(v, rs[0], Product(rs[1..]));
    }
  }

  /** The walk's digit at position `j` is `DigitAt`: the counter divided by the radices before `j`, modulo radix `j`. */
  lemma {:induction false} DecodeDigit(v: nat, rs: seq<nat>, j: nat)
    requires Positive(rs) && j < |rs|
    ensures Decode(v, rs).0[j] == DigitAt(v, rs, j)
    decreases rs
  {
    if j > 0 {
      DecodeDigit(v / rs[0], rs[1..], j - 1);
      assert rs[..j][1..] == rs[1..][..j - 1];
      Arith.DivDiv(v, rs[0], Product(rs[1..][..j - 1]));
    }
  }

  /** Any counter is its digits plus the product of radices times the quotient left over. */
  lemma {:induction false} EncodeDecode(v: nat, rs: seq<nat>)
    requires Positive(rs)
    ensures v == Encode(Decode(v, rs).0, rs) + Product(rs) * Decode(v, rs).1
    decreases rs
  {
    if rs != [] {
      var r, q := rs[0], v / rs[0];
      EncodeDecode(q, rs[1..]);
      var d := Decode(v, rs);
      var t := Decode(q, rs[1..]);
      assert d.0[1..] == t.0;
      var e, p := Encode(t.0, rs[1..]), Product(rs[1..]);
      assert Encode(d.0, rs) == v % r + r * e;
      assert d.1 == t.1;
      assert q == e + p * t.1;
      assert Product(rs) == r * p;
      Arith.DivModIdentity(v, r);
      Arith.ExpandStep(v, v % r, r, q, e, p, t.1);
    }
  }

  /** Decoding an encoded tuple gives the tuple back, with nothing left over. */
  lemma {:induction false} DecodeEncode(ds: seq<nat>, rs: seq<nat>)
    requires Positive(rs) && ValidDigits(ds, rs)
    ensures Decode(Encode(ds, rs), rs) == (ds, 0)
  {
    if rs != [] {
      var r, e := rs[0], Encode(ds[1..], rs[1..]);
      var v := Encode(ds, rs);
      assert v == ds[0] + r * e;
      Arith.DivModUnique(v, r, e, ds[0]);
      DecodeEncode(ds[1..], rs[1..]);
      assert Decode(v / r, rs[1..]) == (ds[1..], 0);
      assert Decode(v, rs) == ([ds[0]] + ds[1..], 0);
      assert [ds[0]] + ds[1..] == ds;
    }
  }

  /** The loop condition of `run_tests`: nothing is left over exactly while the counter is below the product. */
  lemma RestZeroIff(v: nat, rs: seq<nat>)
    requires Positive(rs)
    ensures Decode(v, rs).1 == 0 <==> v < Product(rs)
  {
    DecodeRest(v, rs);
    Arith.DivZeroIff(v, Product(rs));
  }

  /**
    The sweep `0 .. Product(rs) - 1` meets every digit tuple exactly once:
    every tuple is decoded from a counter below the product, and two counters
    below the product with the same digits are equal.
  */
  lemma SweepCoversEachTupleOnce(rs: seq<nat>)
    requires Positive(rs)
    ensures forall ds :: ValidDigits(ds, rs) ==>
              Encode(ds, rs) < Product(rs) && Decode(Encode(ds, rs), rs).0 == ds
    ensures forall v1: nat, v2: nat ::
              (v1 < Product(rs) && v2 < Product(rs) && Decode(v1, rs).0 == Decode(v2, rs).0) ==> v1 == v2
  {
    forall ds | ValidDigits(ds, rs)
      ensures Decode(Encode(ds, rs), rs).0 == ds
    {
      DecodeEncode(ds, rs);
    }
    forall v1: nat, v2: nat | v1 < Product(rs) && v2 < Product(rs) && Decode(v1, rs).0 == Decode(v2, rs).0
      ensures v1 == v2
    {
      RestZeroIff(v1, rs);
      RestZeroIff(v2, rs);
      EncodeDecode(v1, rs);
      EncodeDecode(v2, rs);
    }
  }

  /** Two counters below the product with the same digit at every position are the same counter. */
  lemma SameDigitsSameCounter(v1: nat, v2: nat, rs: seq<nat>)
    requires Positive(rs) && v1 < Product(rs) && v2 < Product(rs)
    requires forall j :: 0 <= j < |rs| ==> DigitAt(v1, rs, j) == DigitAt(v2, rs, j)
    ensures v1 == v2
  {
    var d1, d2 := Decode(v1, rs).0, Decode(v2, rs).0;
    forall j | 0 <= j < |rs|
      ensures d1[j] == d2[j]
    {
      DecodeDigit(v1, rs, j);
      DecodeDigit(v2, rs, j);
    }
    assert d1 == d2;
    RestZeroIff(v1, rs);
    RestZeroIff(v2, rs);
    EncodeDecode(v1, rs);
    EncodeDecode(v2, rs);
  }

  /**
    The first position cycles fastest: its digit is the counter modulo its
    radix, and the digit at position `j` only changes when the counter
    reaches a multiple of the product of the radices before `j`.
  */
  lemma DigitOrder(v: nat, rs: seq<nat>, j: nat)
    requires Positive(rs) && j < |rs|
    ensures DigitAt(v, rs, 0) == v % rs[0]
    ensures (v + 1) % Product(rs[..j]) != 0 ==> DigitAt(v + 1, rs, j) == DigitAt(v, rs, j)
  {
    assert rs[..0] == [];
    var p := Product(rs[..j]);
    if (v + 1) % p != 0 {
      assert v + 1 == p * ((v + 1) / p) + (v + 1) % p;
      Arith.DivModUnique(v, p, (v + 1) / p, (v + 1) % p - 1);
    }
  }

  /** The counter value that ends the sweep selects digit 0 everywhere. */
  lemma TerminalDigitsZero(rs: seq<nat>, j: nat)
    requires Positive(rs) && j < |rs|
    ensures DigitAt(Product(rs), rs, j) == 0
  {
    assert rs == rs[..j] + ([rs[j]] + rs[j + 1..]);
    ProductAppend(rs[..j], [rs[j]] + rs[j + 1..]);
    assert Product([rs[j]] + rs[j + 1..]) == rs[j] * Product(rs[j + 1..]) by {
      assert ([rs[j]] + rs[j + 1..])[1..] == rs[j + 1..];
    }
    var pre, post := Product(rs[..j]), Product(rs[j + 1..]);
    assert Product(rs) == pre * (rs[j] * post);
    Arith.DivExact(pre, rs[j] * post);
    Arith.DivExact(rs[j], post);
  }
}
